=== FILE: README.md ===
# Habit tracker core, in Dafny

A model of the data layer and the view logic of a browser habit tracker.
The user defines a list of habits. Each calendar day they tick off the habits
they did. The app stores one completion record per date. From those records
it derives a calendar colouring, per-habit streaks, a monthly summary and a
30-day heatmap.

The model covers:

- the key-value store (`src/lib/storage.ts`): the habit list, and the
  per-date records whose percentage is computed when they are written (an
  upsert keyed on the date string);
- calendar arithmetic (`src/lib/dateUtils.ts`): `YYYY-MM-DD` keys, the
  Gregorian month lengths, Sunday-aligned month grids and the day of the week;
- the analytics derivations (`src/components/Analytics.tsx`);
- the list-editing rules of the settings screen, the first-run setup screen
  and the day dialog;
- the notification settings and their single reminder timer
  (`src/lib/notifications.ts`);
- month navigation in the calendar and the four-view page machine.

Browser storage is a `Store` value. Times ("now", "today", the clock's hour
and minute) and the user's answer to the permission prompt are parameters.

Files (one module each): `common.dfy` (JavaScript idioms: `||` on numbers,
`Math.round`, `String(n)`, `trim`, and the toast messages both editors
show), `string_order.dfy` (`localeCompare` on
date keys), `date_utils.dfy`, `storage.dfy`, `analytics.dfy`,
`day_modal.dfy`, `palette.dfy` (the icon and colour lists both editors
declare), `settings.dfy`, `habit_setup.dfy`, `notifications.dfy`,
`calendar_view.dfy`, `index_page.dfy`.

Conventions:

- Months are 0-based, as `getMonth()` returns them.
- `Math.round(x)` is `floor(x + 1/2)`. For a positive denominator it is
  written `(2*num + den) / (2*den)` with exact integer division.
- `Array.prototype.sort` is in place. So the analytics summary (best and
  worst day) runs over the month's records after they were sorted by date.
  The model passes that sorted list to `MonthSummary`, and ties go to the
  earliest date.
- Where the source looks wrong, the model keeps the behaviour as written.
  A separate corrected member sits beside it (see "## Findings").

## Model

| member | source | states |
|---|---|---|
| Common.RoundDiv | src/lib/storage.ts:45 | `Math.round(num/den)` for den > 0: the integer r with r - 1/2 <= num/den < r + 1/2 |
| Common.RoundDivUnique | src/lib/storage.ts:45 | any integer inside that half-open bracket is the rounded value, so the rounding is determined |
| Common.NatToStringValue | src/lib/dateUtils.ts:3-4 | `String(n)` is a digit string whose decimal value is n |
| Common.RoundDivFull | src/components/DayModal.tsx:57 | a count over itself rounds to exactly 100% |
| Common.NatToStringInjective | src/components/HabitSetup.tsx:52 | distinct numbers print differently, which makes the numbered setup ids distinct |
| Common.TrimEmptyIffBlank | src/components/Settings.tsx:38 | `s.trim()` is empty exactly when every character of s is JavaScript white space |
| StringOrder.LexTrichotomy | src/components/Analytics.tsx:28 | the `localeCompare` order on keys is total and antisymmetric |
| StringOrder.LexLessTransitive | src/components/Analytics.tsx:28 | the key order is transitive, so sorting by it is well defined |
| StringOrder.LexLessDigits | src/lib/dateUtils.ts:1-6 | two digit strings of one length compare as their numeric values do |
| DateUtils.DaysInMonth | src/lib/dateUtils.ts:14 | day 0 of the next month is the last day of this one: 28..31, with 29 in February exactly in leap years and 30 exactly in April, June, September and November |
| DateUtils.NextPrevInverse | src/components/Analytics.tsx:69-70 | stepping one day back and one day forward are inverse |
| DateUtils.NextDayIsLater | src/components/Analytics.tsx:68-70 | the next day is strictly later in (year, month, day) order |
| DateUtils.NextDayOfWeek | src/lib/dateUtils.ts:18 | the weekday advances by one, mod 7, from each day to the next, across month and year ends |
| DateUtils.EpochIsThursday | src/lib/dateUtils.ts:18 | anchors the weekday numbering (Sunday = 0): 1 January 1970 is day 4 |
| DateUtils.FormatDateShape | src/lib/dateUtils.ts:1-6 | for years 1000..9999 the key has 10 characters, `-` at positions 4 and 7, digits elsewhere, and the fields read back as year, month + 1 and day |
| DateUtils.FormatDate | src/lib/dateUtils.ts:1-6 | the key is the year's digits followed by six characters `-MM-DD` |
| DateUtils.FormatDateInjective | src/lib/dateUtils.ts:1-6 | two valid dates with the same key are the same date (any year) |
| DateUtils.IsSameDayIffEqual | src/lib/dateUtils.ts:8-10 | `isSameDay` holds exactly for equal dates, hence is reflexive and symmetric |
| DateUtils.IsSameDay | src/lib/dateUtils.ts:8-10 | two valid dates are the same day exactly when they are equal |
| DateUtils.FormatDateOrder | src/lib/dateUtils.ts:1-6 | for years 1000..9999 the key order is the chronological order |
| DateUtils.ParseFormatRoundTrip | src/components/Analytics.tsx:21 | reading a key back gives the date it was made from |
| DateUtils.GetMonthDays | src/lib/dateUtils.ts:12-29 | length first-weekday + days-in-month; the padding cells lie in the previous month; cell i after the padding is day i - f + 1 of the month; nothing follows the last day |
| DateUtils.MonthDaysConsecutive | src/lib/dateUtils.ts:19-26 | neighbouring cells are consecutive calendar days |
| DateUtils.MonthDaysPaddingEndsBeforeFirst | src/lib/dateUtils.ts:18-21 | the padding ends on the day before the 1st |
| DateUtils.MonthDaysWeekdays | src/lib/dateUtils.ts:12-29 | cell i falls on weekday i mod 7, so every row of seven starts on a Sunday |
| DateUtils.GetMonthName | src/lib/dateUtils.ts:31-37 | a name exactly for months 0..11, "January" for 0 and "December" for 11 |
| DateUtils.MonthNamesDistinct | src/lib/dateUtils.ts:32-35 | the twelve names are pairwise different |
| Storage.GetHabits | src/lib/storage.ts:19-22 | the stored list, or the empty list when nothing is stored |
| Storage.SaveHabits | src/lib/storage.ts:24-26 | a later read returns exactly the list written; records are untouched |
| Storage.IsSetupCompleteIff | src/lib/storage.ts:59-61 | setup is complete iff a non-empty habit list is stored; an empty store is not set up |
| Storage.IsSetupComplete | src/lib/storage.ts:59-61 | true exactly when a non-empty habit list is stored |
| Storage.HabitIdsCard | src/components/HabitSetup.tsx:50-55 | a list has at most as many distinct ids as entries, exactly as many when ids are unique |
| Storage.CountTrueAll | src/lib/storage.ts:44 | the count of true values equals the key count iff every value is true |
| Storage.CountTrueNone | src/lib/storage.ts:44 | the count of true values is 0 iff no value is true |
| Storage.ProgressPercent | src/lib/storage.ts:43-45 | the stored percentage is in 0..100, is 0 for an empty map, and is the half-up rounding of 100 * true / keys |
| Storage.ProgressFullIffAllDone | src/lib/storage.ts:43-45 | below 200 keys, 100% is stored iff the map is non-empty and all true |
| Storage.ProgressZeroIffNoneDone | src/lib/storage.ts:43-45 | up to 200 keys, 0% is stored iff no value is true |
| Storage.AllButOneRoundsToFull | src/lib/storage.ts:45 | from 200 keys on, one unticked habit still rounds to 100%, so the bounds above are tight |
| Storage.GetAllProgress | src/lib/storage.ts:29-32 | the stored records, or the empty list when nothing is stored |
| Storage.FindIndex | src/lib/storage.ts:41 | `findIndex`: the first position with that date, or none exactly when no record has it |
| Storage.FindByDate | src/lib/storage.ts:34-37 | `getProgressForDate`: the first record with that date, or null exactly when none has it |
| Storage.GetProgressForDate | src/lib/storage.ts:34-37 | the first stored record with that date; null exactly when no stored record has it |
| Storage.ProgressOrZero | src/components/Analytics.tsx:72-75 | the first matching record's percentage, or 0 when no record matches |
| Storage.Upsert | src/lib/storage.ts:41-53 | an existing date is replaced at its first index; otherwise the record is appended |
| Storage.SaveProgressForDate | src/lib/storage.ts:39-56 | habits are untouched, the records become the upsert of the new record, and reading the date back gives it |
| Storage.UpsertThenFind | src/lib/storage.ts:49-53 | after an upsert, the lookup for that date returns the new record |
| Storage.SaveExistingDateInPlace | src/lib/storage.ts:49-50 | an existing date keeps its index and the length is unchanged; every other index is unchanged |
| Storage.SaveNewDateAppends | src/lib/storage.ts:51-53 | a new date is appended and the length grows by one |
| Storage.SavePreservesUniqueDates | src/lib/storage.ts:49-53 | if dates were unique before a save, they are unique after it |
| Storage.SaveIdempotent | src/lib/storage.ts:39-56 | saving the same date and map twice equals saving once |
| Storage.SaveLeavesOtherDates | src/lib/storage.ts:49-53 | a save does not change the lookup of any other date |
| Analytics.MonthProgress | src/components/Analytics.tsx:20-24 | exactly the records of the month, each with its multiplicity |
| Analytics.SortByDate | src/components/Analytics.tsx:28-38 | a permutation of its input, sorted by key, ascending or descending |
| Analytics.InsertSorted | src/components/Analytics.tsx:28 | inserting into a sorted list keeps it sorted |
| Analytics.SortedMonth | src/components/Analytics.tsx:20-28 | a permutation of the month's records, in ascending key order |
| Analytics.DailyData | src/components/Analytics.tsx:27-32 | one bar per record, in order, with the record's day of month and percentage |
| Analytics.Streak | src/components/Analytics.tsx:40-47 | the length of the longest prefix in which the habit is ticked |
| Analytics.StreakLoop | src/components/Analytics.tsx:36-47 | the loop's `currentStreak` is that prefix length and `maxStreak` equals it on exit |
| Analytics.CurrentStreak | src/components/Analytics.tsx:38-47 | with all records sorted newest first, the habit is ticked on the first n of them and not on the next one |
| Analytics.StreakData | src/components/Analytics.tsx:35-54 | one entry per habit, in habit order, with its name, colour and current streak over all records |
| Analytics.StreakZeroIfLatestMissed | src/components/Analytics.tsx:38-46 | with unique dates, a habit unticked or absent on the newest record has streak 0 |
| Analytics.StreakIgnoresDateGaps | src/components/Analytics.tsx:40-47 | when every record has the habit ticked, the streak is the number of records, whatever the gaps between their dates |
| Analytics.SumProgressBounds | src/components/Analytics.tsx:59 | the sum of n percentages lies in 0..100n |
| Analytics.AvgProgress | src/components/Analytics.tsx:58-60 | the half-up rounded mean, 0 for no records, within 0..100 for percentages |
| Analytics.BestDay | src/components/Analytics.tsx:61 | none for an empty month; otherwise the first record attaining the maximum |
| Analytics.WorstDayAsWritten | src/components/Analytics.tsx:62 | the reduce as written: none for an empty month, otherwise one of the records |
| Analytics.WorstDayAgreesWithoutZero | src/components/Analytics.tsx:62 | without a 0% record, the reduce as written returns the first record attaining the minimum |
| Analytics.WorstDayAsWrittenSkipsZero | src/components/Analytics.tsx:62 | records [0%, 50%] make the reduce as written report the 50% one |
| Analytics.WorstDay | src/components/Analytics.tsx:62 | none for an empty month; otherwise the first record attaining the minimum |
| Analytics.PerfectDays | src/components/Analytics.tsx:63 | the number of positions holding a 100% record; hence 0 iff none is 100, and the total iff all are |
| Analytics.WorstAtMostBest | src/components/Analytics.tsx:61-62 | the reported worst day never has a higher percentage than the best day |
| Analytics.WorstDayAsWrittenWithoutZero | src/components/Analytics.tsx:62 | in a month without a 0% record, the reported worst day is the first record of minimal percentage |
| Analytics.MonthSummary | src/components/Analytics.tsx:57-63 | as the source computes it: the record count; the half-up rounded mean (0 when empty); the first maximal record as best; as worst, the `\|\| 100` reduce, which is one of the records, the first minimal one when no record is 0%, and never above the best; the number of 100% records |
| Analytics.IntendedMonthSummary | src/components/Analytics.tsx:57-63 | the same summary except that the worst day is the first record of minimal percentage |
| Analytics.SummariesAgreeWithoutZero | src/components/Analytics.tsx:62 | the summary as written and the intended one coincide on every month without a 0% record |
| Analytics.HeatmapDates | src/components/Analytics.tsx:66-70 | 30 valid dates, the last one today |
| Analytics.HeatmapDatesConsecutive | src/components/Analytics.tsx:68-70 | the 30 dates are consecutive days, oldest first |
| Analytics.Heatmap | src/components/Analytics.tsx:66-77 | 30 cells, one per day of the window, with its day of month; a day with a record shows the first such record's percentage, and a day without one shows 0 |
| Analytics.HeatmapBand | src/components/Analytics.tsx:93-99 | five bands: 0, other values below 40, 40..69, 70..99, and 100 up |
| Analytics.HeatmapBandMonotone | src/components/Analytics.tsx:93-99 | on percentages the band never goes down as the value goes up |
| Analytics.ComputeAnalytics | src/components/Analytics.tsx:15-91 | the summary counts the records of today's month and is the as-written summary of them in date order; best and worst lie in that month; one bar per record; the bars are the month's records in ascending date order; each habit gets its current streak over all records; each heatmap cell shows its day's first stored percentage or 0 |
| DayModal.Open | src/components/DayModal.tsx:17-32 | a stored record's map is used unchanged; without one, every current habit id maps to false and nothing else is a key |
| DayModal.Toggle | src/components/DayModal.tsx:34-39 | exactly `habitId` is set to `checked`, every other key keeps its value, and the whole map is persisted for the date |
| DayModal.ToggleIdempotent | src/components/DayModal.tsx:34-39 | repeating a toggle changes neither the dialog nor the store |
| DayModal.DisplayedProgressAsWritten | src/components/DayModal.tsx:55-57 | as written: all true values of the map, rounded over the current habit count, and 0 without habits |
| DayModal.CelebratesAsWritten | src/components/DayModal.tsx:42-45 | as written: the celebration fires when the map's true count equals the habit count, and then the dialog shows 100% |
| DayModal.IsPerfectDay | src/components/DayModal.tsx:42-45 | corrected: the celebration fires iff there is a habit and the ticked current habits are exactly the current habit ids |
| DayModal.OrphanIdsInflateProgress | src/components/DayModal.tsx:42-57 | after a habit is deleted, its stored tick gives 200% and a celebration with the current habit unticked |
| DayModal.DisplayedProgress | src/components/DayModal.tsx:55-57 | corrected: ticked current habits over the habit count, always in 0..100 |
| DayModal.PerfectDayIffAllCounted | src/components/DayModal.tsx:42-45 | with unique ids, every current habit is ticked iff the ticked current habits number the habit count |
| DayModal.AsWrittenAgreesWithoutOrphans | src/components/DayModal.tsx:42-57 | when the map holds only current ids, the check and the percentage as written equal the corrected ones |
| Palette.ColorFor | src/components/Settings.tsx:66 | the colour for n habits is one of the ten options, the n-th for n < 10 |
| Palette.IconFor | src/components/Settings.tsx:67 | the icon for n habits is one of the fourteen options, the n-th for n < 14 |
| Palette.DefaultsCycle | src/components/Settings.tsx:66-67 | the default colour repeats every 10 habits, the icon every 14, both every 70 |
| Settings.StartEdit | src/components/Settings.tsx:30-35 | the form holds that habit's id, name, colour and icon; the list is unchanged |
| Settings.Mount | src/components/Settings.tsx:26-28 | the editor starts with the stored habit list and no habit open |
| Settings.CancelEdit | src/components/Settings.tsx:145 | cancelling closes the form and leaves the list alone |
| Settings.SaveEdit | src/components/Settings.tsx:37-53 | a blank name is refused and nothing changes; otherwise only the edited habit takes the form's untrimmed name, colour and icon, length, order and ids stay, the list is stored and the form closes |
| Settings.SaveEditKeepsIds | src/components/Settings.tsx:43-47 | editing preserves the set of ids and their uniqueness |
| Settings.StartThenSaveIsNoOp | src/components/Settings.tsx:30-53 | opening a habit and saving the untouched form gives the list back |
| Settings.RemoveById | src/components/Settings.tsx:56 | keeps exactly the habits with another id, and is the identity when the id is absent |
| Settings.RemoveByIdAppend | src/components/Settings.tsx:56 | the filter distributes over concatenation, so the kept habits keep their order |
| Settings.RemoveByIdCount | src/components/Settings.tsx:56 | with unique ids, deleting a present id shortens the list by exactly one |
| Settings.DeleteHabit | src/components/Settings.tsx:55-60 | the list becomes the id filter of the old one, so the other habits keep their order and multiplicity; no habit with that id remains; the list is stored and records are untouched |
| Settings.AddNewHabit | src/components/Settings.tsx:62-74 | appends one "New Habit" with id `habit-<now>`, the cycled colour and icon, stores the list and opens it for editing, with the form holding its id, name, colour and icon |
| Settings.AddNewHabitKeepsUniqueIds | src/components/Settings.tsx:62-71 | ids stay unique as long as no habit already has the new timestamp id |
| Settings.AddThenDeleteRestores | src/components/Settings.tsx:55-74 | deleting a freshly added habit gives the list back |
| HabitSetup.Initial | src/components/HabitSetup.tsx:20-22 | one blank draft with the first colour and icon |
| HabitSetup.AddDraft | src/components/HabitSetup.tsx:24-31 | appends one blank draft with colour n mod 10 and icon n mod 14 |
| HabitSetup.UpdateDraft | src/components/HabitSetup.tsx:33-37 | changes exactly one field of the draft at the index |
| HabitSetup.UpdateSameValueIsNoOp | src/components/HabitSetup.tsx:33-37 | writing a field's own value back changes nothing |
| HabitSetup.RemoveDraft | src/components/HabitSetup.tsx:39-41 | drops exactly the draft at the index and keeps the rest in order; the identity for any other index |
| HabitSetup.NeverEmpty | src/components/HabitSetup.tsx:39-41 | since removal is offered only with more than one draft, no sequence of actions empties the list |
| HabitSetup.ValidDrafts | src/components/HabitSetup.tsx:44 | exactly the drafts with a non-blank name; all of them when none is blank |
| HabitSetup.ValidDraftsAppend | src/components/HabitSetup.tsx:44 | the filter distributes over concatenation, so the named drafts keep their order and multiplicity |
| HabitSetup.ValidDraftsSingle | src/components/HabitSetup.tsx:44 | a single draft is kept iff its name is not blank |
| HabitSetup.ValidDraftsCount | src/components/HabitSetup.tsx:44 | as many drafts are kept as there are positions with a non-blank name |
| HabitSetup.SetupIdInjective | src/components/HabitSetup.tsx:52 | `habit-<now>-<i>` differs for different i |
| HabitSetup.WithIdsUnique | src/components/HabitSetup.tsx:50-53 | the numbered habits have pairwise distinct ids |
| HabitSetup.ReadyCount | src/components/HabitSetup.tsx:144 | the button's count is the number of positions with a non-blank name, so 0 iff every name is blank |
| HabitSetup.Complete | src/components/HabitSetup.tsx:43-58 | refuses and stores nothing when no name is filled in; otherwise stores the named drafts, numbered in order, and setup is complete |
| HabitSetup.CompleteSavesNamedDrafts | src/components/HabitSetup.tsx:44-55 | the stored habits have unique ids and non-blank names, their number is the ready count, and every named draft is among them |
| Notifications.GetSettings | src/lib/notifications.ts:53-63 | the stored settings, or disabled / daily reminder on / 20:00 / completion on |
| Notifications.Send | src/lib/notifications.ts:40-50 | one notice, with the favicon, exactly when supported and granted |
| Notifications.IsPermissionGranted | src/lib/notifications.ts:35-37 | granted exactly when notifications are supported and the permission is `granted` |
| Notifications.RequestPermission | src/lib/notifications.ts:12-28 | false without support; the prompt changes the permission only while it is undecided; the answer is true iff permission ends up granted |
| Notifications.SplitColon | src/lib/notifications.ts:81 | at least one piece, and the whole text when it has no colon |
| Notifications.ToNum | src/lib/notifications.ts:81 | `Number` of a digit string is its value and of blank text is 0 |
| Notifications.ParseFormatTime | src/lib/notifications.ts:81 | any `HH:MM` time parses back to its hour and minute |
| Notifications.ParseTime | src/lib/notifications.ts:81 | a text without a colon gives its number as the hour and a minute that matches no clock reading |
| Notifications.ReminderFiresExactly | src/lib/notifications.ts:83-91 | a reminder set to HH:MM matches exactly at that hour and minute |
| Notifications.CheckTime | src/lib/notifications.ts:83-91 | sends the reminder iff the clock matches and permission is granted |
| Notifications.Cancel | src/lib/notifications.ts:101-107 | clears the held interval and forgets its id; nothing changes when no id is held |
| Notifications.CancelIdempotent | src/lib/notifications.ts:101-107 | cancelling twice is cancelling once |
| Notifications.Schedule | src/lib/notifications.ts:77-99 | cancels first, then holds one fresh interval for the parsed time, and runs the check once at once |
| Notifications.Tick | src/lib/notifications.ts:94 | each minute the running interval, if any, sends iff its time matches |
| Notifications.SaveSettings | src/lib/notifications.ts:65-74 | a later read returns what was saved; an interval is held iff enabled and daily reminder are both on, and then exactly one runs |
| Notifications.SavesKeepSingleTimer | src/lib/notifications.ts:65-107 | after any sequence of saves at most one reminder interval runs |
| Notifications.EnableThenDisableStopsTimer | src/lib/notifications.ts:65-74 | saving settings with the reminder on and then off leaves exactly one interval after the first save and none after the second |
| Notifications.SendCompletion | src/lib/notifications.ts:110-118 | a completion notice iff enabled, completion notification on, and permission granted |
| CalendarView.PreviousMonth | src/components/CalendarView.tsx:23-25 | day 1 of the month before; January goes to December of the year before |
| CalendarView.NextMonth | src/components/CalendarView.tsx:27-29 | day 1 of the month after; December goes to January of the year after |
| CalendarView.TwelveMonthsAhead | src/components/CalendarView.tsx:27-29 | twelve presses of next land on day 1 of the same month a year on |
| CalendarView.GetDayProgress | src/components/CalendarView.tsx:31-35 | the stored percentage for the day's key, 0 without a record |
| CalendarView.ProgressBand | src/components/CalendarView.tsx:37-43 | the same five ranges as the heatmap |
| CalendarView.MakeCell | src/components/CalendarView.tsx:100-121 | a cell is disabled iff outside the shown month, marked today iff equal to today, and captioned iff its percentage is positive and it is in the month |
| CalendarView.GridDisabledIsPadding | src/components/CalendarView.tsx:99-108 | exactly the leading padding cells are disabled, and only enabled cells carry a caption |
| CalendarView.Grid | src/components/CalendarView.tsx:98-122 | one cell per day of the month grid, with that day, its stored percentage or 0, the matching colour band, and today marked exactly on today |
| CalendarView.Click | src/components/CalendarView.tsx:107 | a click selects the day iff it is in the shown month, and is ignored otherwise |
| CalendarView.ClickSelectsShownMonth | src/components/CalendarView.tsx:107-108 | clicking any grid cell selects nothing or a valid day of the shown month and year |
| IndexPage.Mount | src/pages/Index.tsx:13-17 | the calendar iff habits are stored, setup otherwise |
| IndexPage.Step | src/pages/Index.tsx:21-29 | setup goes to calendar, calendar to analytics or settings, those two back to calendar; other events do nothing |
| IndexPage.StepEdges | src/pages/Index.tsx:21-29 | a change of view follows an edge of the graph; nothing leads back to setup |
| IndexPage.SetupNeverReturns | src/pages/Index.tsx:21-29 | once setup is left, no sequence of events returns to it |
| IndexPage.AnalyticsToSettingsViaCalendar | src/pages/Index.tsx:22-29 | going from analytics to settings passes through the calendar |

## Left out

- Browser storage and JSON. `localStorage`, `sessionStorage`, `JSON.parse` and `JSON.stringify` are replaced by plain values. A stored value that does not parse makes the source throw. It does not fall back to an empty collection, so the model has no such rule.
- The `Notification` object and the asynchronous permission prompt. They become the `supported` and `permission` fields and an `answer` parameter.
- Interval timing. `setInterval` is a map from interval id to the parsed time, and a minute passing is a call to `Notifications.Tick`. Interval ids are the browser's, modelled as a counter.
- Time zones. Dates are plain (year, month, day) values. The analytics view reads stored keys with `new Date("YYYY-MM-DD")`, which is UTC midnight, and then applies local getters. In every time zone west of UTC each key therefore reads back as the previous day, at any hour: a record for the 1st falls into the previous month's summary, and every daily bar carries the previous day's number. The heatmap makes its keys with `toISOString` (UTC), which names a neighbouring day only within the zone's offset of midnight. The model uses the local calendar date throughout, which is what the source computes in UTC and in zones east of it.
- Floating point. `Math.round(a / b * 100)` is taken as the exact half-up rounding of a rational number. A float that lands just below a .5 boundary is not modelled.
- `localeCompare` is taken as code-unit order. For the digit-and-dash keys involved the two agree.
- `Notifications.ToNum`: handles blank text, decimal digits and surrounding white space, and treats every other text as never matching. Signs, decimals, exponents and hexadecimal are not modelled; none of them can match an integer clock reading apart from forms like `+8` or `08.0`, which a time input does not produce.
- `HabitSetup.UpdateDraft` requires an index inside the list. The screen only passes indices of rendered drafts. An index past the end would make JavaScript extend the array with a partial draft.
- `CalendarView.GetDayProgress`, `Analytics.Heatmap`: a stored percentage of 0 and a missing record both give 0 (`|| 0`), as in the source.
- `IndexPage.Mount` and the screens: rendering, styling, toasts, confetti and charts are left out. The model keeps only the state they display. Toast texts appear only where they are the outcome of a guard.
- `Analytics.ComputeAnalytics` takes today's date once. The source reads it once for the month filter and again for the heatmap.
- `HabitSetup.Complete`: one clock reading `now` serves every new id. The source calls `Date.now()` once per habit inside the map, so the timestamps in the ids may differ by a millisecond. Uniqueness does not depend on this, because the `-<i>` suffix already tells the ids apart.
- The notification settings screen (`src/components/NotificationSettings.tsx`) is not part of this model. Its only logic is to build a settings record and pass it to `saveSettings`, which is modelled.
- `Settings.AddNewHabit`: `Date.now()` is the `now` parameter. Two additions in the same millisecond would give two habits the same id; `Settings.AddNewHabitKeepsUniqueIds` assumes they do not.
- Where the written description and the code differ, the model follows the code (apart from the corrected partners listed under "## Findings"):
  - Best and worst day break ties by date order. The month's records were sorted by date in place before the reduce runs.
  - A streak ends at a record where the habit is unticked or missing. It does not need an explicit `false`.
  - A name that is blank after trimming is rejected, but a valid name is stored untrimmed.

## Findings

| source | as written | input that shows it | evidently intended | confidence | as-written member | corrected member |
|---|---|---|---|---|---|---|
| src/components/Analytics.tsx:62 | the worst-day reduce compares with `worst?.progress \|\| 100`, so a current worst of 0% is compared as 100% | month records [0%, 50%] (in date order): the 50% record is reported as the worst day | the first record with the minimum percentage | high, not executed | Analytics.WorstDayAsWrittenSkipsZero | Analytics.WorstDay |
| src/components/DayModal.tsx:42-57 | the dialog counts every true value of the stored map, including ids of habits deleted since, and divides by the current habit count | a day stored with habits A and B ticked, then B deleted: the dialog shows 2/1 and 200%; unticking A still triggers the celebration | count only the current habits' ticks, so the percentage stays in 0..100 and the celebration needs every current habit ticked | high, not executed | DayModal.OrphanIdsInflateProgress | DayModal.DisplayedProgress |

`Analytics.MonthSummary` and `Analytics.ComputeAnalytics` report the worst day
as the code does (`Analytics.WorstDayAsWritten`).
`Analytics.IntendedMonthSummary` is the summary built on the corrected
`Analytics.WorstDay`.

In the day dialog, `DayModal.CelebratesAsWritten` and
`DayModal.DisplayedProgressAsWritten` follow the code. The corrected
members are `DayModal.IsPerfectDay` and `DayModal.DisplayedProgress`.

`Analytics.SummariesAgreeWithoutZero` and `DayModal.AsWrittenAgreesWithoutOrphans`
prove that the corrected members agree with the code as written whenever
the triggering input is absent.

=== FILE: analytics.dfy ===
/**
  The derivations of src/components/Analytics.tsx: the month's records,
  the daily series, per-habit current streaks, the monthly summary, the
  30-day heatmap and its colour bands. "Now" is a parameter.
 */
module Analytics {
  import opened Common
  import opened StringOrder
  import opened DateUtils
  import opened Storage

  // ---------------------------------------------------------------------
  // Month filter
  // ---------------------------------------------------------------------

  /** `new Date(p.date)` reports the given month and year. */
  predicate InMonth(p: DayProgress, ym: YearMonth) {
    match ParseDate(p.date)
    case Some(d) => d.year == ym.year && d.month == ym.month
    case None => false
  }

  /** `allProgress.filter(...)`: the records of one month, each as often as it occurs, in stored order. */
  function MonthProgress(all: seq<DayProgress>, ym: YearMonth): (r: seq<DayProgress>)
    ensures |r| <= |all|
    ensures forall p :: multiset(r)[p] == if InMonth(p, ym) then multiset(all)[p] else 0
  {
    if |all| == 0 then []
    else
      var rest := MonthProgress(all[1..], ym);
      assert all == [all[0]] + all[1..];
      if InMonth(all[0], ym) then [all[0]] + rest else rest
  }

  // ---------------------------------------------------------------------
  // Sorting by date string
  // ---------------------------------------------------------------------

  /**
    The comparator of the two sorts: ascending `a.date.localeCompare(b.date)`
    or descending `b.date.localeCompare(a.date)`; a strictly precedes b.
   */
  predicate Precedes(a: DayProgress, b: DayProgress, desc: bool) {
    if desc then LexLess(b.date, a.date) else LexLess(a.date, b.date)
  }

  predicate SortedBy(ps: seq<DayProgress>, desc: bool) {
    forall i, j :: 0 <= i < j < |ps| ==> !Precedes(ps[j], ps[i], desc)
  }

  lemma PrecedesTransitive(a: DayProgress, b: DayProgress, c: DayProgress, desc: bool)
    requires Precedes(a, b, desc) && Precedes(b, c, desc)
    ensures Precedes(a, c, desc)
  {
    if desc {
      LexLessTransitive(c.date, b.date, a.date);
    } else {
      LexLessTransitive(a.date, b.date, c.date);
    }
  }

  /** Of two records at most one precedes the other; if neither does, their dates agree. */
  lemma PrecedesTotal(a: DayProgress, b: DayProgress, desc: bool)
    ensures !(Precedes(a, b, desc) && Precedes(b, a, desc))
    ensures !Precedes(a, b, desc) && !Precedes(b, a, desc) ==> a.date == b.date
  {
    LexTrichotomy(a.date, b.date);
  }

  /** Insert after every record that does not come strictly later: keeps the sort stable. */
  function Insert(x: DayProgress, s: seq<DayProgress>, desc: bool): (r: seq<DayProgress>)
    ensures multiset(r) == multiset(s) + multiset{x}
    ensures |r| == |s| + 1
  {
    if |s| == 0 then [x]
    else if Precedes(x, s[0], desc) then [x] + s
    else
      assert s == [s[0]] + s[1..];
      [s[0]] + Insert(x, s[1..], desc)
  }

  /** Putting x in front of a sorted list it strictly precedes keeps it sorted. */
  lemma ConsSorted(x: DayProgress, s: seq<DayProgress>, desc: bool)
    requires SortedBy(s, desc)
    requires forall j :: 0 <= j < |s| ==> !Precedes(s[j], x, desc)
    ensures SortedBy([x] + s, desc)
  {
    var r := [x] + s;
    forall i, j | 0 <= i < j < |r| ensures !Precedes(r[j], r[i], desc) {
      assert r[j] == s[j - 1];
      if i > 0 {
        assert r[i] == s[i - 1];
      }
    }
  }

  lemma {:induction false} InsertSorted(x: DayProgress, s: seq<DayProgress>, desc: bool)
    requires SortedBy(s, desc)
    ensures SortedBy(Insert(x, s, desc), desc)
    decreases |s|
  {
    if |s| == 0 {
    } else if Precedes(x, s[0], desc) {
      forall j | 0 <= j < |s| ensures !Precedes(s[j], x, desc) {
        PrecedesTotal(x, s[0], desc);
        if j > 0 && Precedes(s[j], x, desc) {
          PrecedesTransitive(s[j], x, s[0], desc);
        }
      }
      ConsSorted(x, s, desc);
    } else {
      var tail := s[1..];
      assert SortedBy(tail, desc) by {
        forall i, j | 0 <= i < j < |tail| ensures !Precedes(tail[j], tail[i], desc) {
          assert tail[j] == s[j + 1] && tail[i] == s[i + 1];
        }
      }
      InsertSorted(x, tail, desc);
      var t := Insert(x, tail, desc);
      forall j | 0 <= j < |t| ensures !Precedes(t[j], s[0], desc) {
        assert t[j] in multiset(t);
        if t[j] != x {
          assert t[j] in multiset(tail);
          var m :| 0 <= m < |tail| && tail[m] == t[j];
          assert s[m + 1] == t[j];
        } else {
          PrecedesTotal(x, s[0], desc);
        }
      }
      ConsSorted(s[0], t, desc);
    }
  }

  /** `sort` with the date comparator (ascending, or descending when `desc`): stable insertion sort. */
  function SortByDate(ps: seq<DayProgress>, desc: bool): (r: seq<DayProgress>)
    ensures multiset(r) == multiset(ps)
    ensures |r| == |ps|
    ensures SortedBy(r, desc)
  {
    if |ps| == 0 then []
    else
      var n := |ps| - 1;
      var init, last := ps[..n], ps[n];
      var sorted := SortByDate(init, desc);
      InsertSorted(last, sorted, desc);
      SnocMultiset(ps);
      Insert(last, sorted, desc)
  }

  lemma SnocMultiset(ps: seq<DayProgress>)
    requires |ps| > 0
    ensures multiset(ps) == multiset(ps[..|ps| - 1]) + multiset{ps[|ps| - 1]}
  {
    assert ps == ps[..|ps| - 1] + [ps[|ps| - 1]];
  }

  // ---------------------------------------------------------------------
  // Daily series
  // ---------------------------------------------------------------------

  datatype DailyPoint = DailyPoint(date: int, progress: int)

  /** `dailyData`: day of month and percentage of each of the month's records, ascending by date. */
  function DailyData(sortedMonth: seq<DayProgress>, ym: YearMonth): (r: seq<DailyPoint>)
    requires forall i :: 0 <= i < |sortedMonth| ==> InMonth(sortedMonth[i], ym)
    ensures |r| == |sortedMonth|
    ensures forall i :: 0 <= i < |r| ==> (r[i].progress == sortedMonth[i].progress
      && ParseDate(sortedMonth[i].date) == Some(Date(ym.year, ym.month, r[i].date)))
  {
    seq(|sortedMonth|, i requires 0 <= i < |sortedMonth| =>
      DailyPoint(DayOfMonth(sortedMonth[i], ym), sortedMonth[i].progress))
  }

  /** `new Date(p.date).getDate()` for a record of the month. */
  function DayOfMonth(p: DayProgress, ym: YearMonth): (day: int)
    requires InMonth(p, ym)
    ensures ParseDate(p.date) == Some(Date(ym.year, ym.month, day))
  {
    ParseDate(p.date).value.day
  }

  // ---------------------------------------------------------------------
  // Streaks
  // ---------------------------------------------------------------------

  /** `progress.habits[habit.id]` is truthy: present and true. */
  predicate Done(p: DayProgress, id: string) {
    id in p.habits && p.habits[id]
  }

  /** The length of the longest prefix of `ps` in which the habit is done. */
  function Streak(ps: seq<DayProgress>, id: string): (n: nat)
    ensures n <= |ps|
    ensures forall j :: 0 <= j < n ==> Done(ps[j], id)
    ensures n < |ps| ==> !Done(ps[n], id)
  {
    if |ps| == 0 || !Done(ps[0], id) then 0 else 1 + Streak(ps[1..], id)
  }

  /**
    The streak loop as written: count while the habit is done, keep a
    running maximum, stop at the first miss. Because it stops at the first
    miss, the maximum never differs from the current count.
   */
  method StreakLoop(sortedProgress: seq<DayProgress>, id: string) returns (currentStreak: nat, maxStreak: nat)
    ensures currentStreak == maxStreak
    ensures currentStreak <= |sortedProgress|
    ensures forall j :: 0 <= j < currentStreak ==> Done(sortedProgress[j], id)
    ensures currentStreak < |sortedProgress| ==> !Done(sortedProgress[currentStreak], id)
    ensures currentStreak == Streak(sortedProgress, id)
  {
    currentStreak, maxStreak := 0, 0;
    var i := 0;
    while i < |sortedProgress|
      invariant 0 <= i <= |sortedProgress|
      invariant currentStreak == i && maxStreak == i
      invariant forall j :: 0 <= j < i ==> Done(sortedProgress[j], id)
    {
      if Done(sortedProgress[i], id) {
        currentStreak := currentStreak + 1;
        maxStreak := Max(maxStreak, currentStreak);
      } else {
        break;
      }
      i := i + 1;
    }
  }

  /**
    A habit's current streak: over all records sorted newest date first,
    the habit is done on the first n and not done on the next one.
   */
  function CurrentStreak(all: seq<DayProgress>, id: string): (n: nat)
    ensures n <= |all|
    ensures forall j :: 0 <= j < n ==> Done(SortByDate(all, true)[j], id)
    ensures n < |all| ==> !Done(SortByDate(all, true)[n], id)
  {
    Streak(SortByDate(all, true), id)
  }

  datatype StreakEntry = StreakEntry(name: string, streak: nat, color: string)

  /** `streakData`: one entry per habit, in habit order. */
  function StreakData(habits: seq<Habit>, all: seq<DayProgress>): (r: seq<StreakEntry>)
    ensures |r| == |habits|
    ensures forall i :: 0 <= i < |r| ==> (r[i].name == habits[i].name && r[i].color == habits[i].color
      && r[i].streak == CurrentStreak(all, habits[i].id))
  {
    seq(|habits|, i requires 0 <= i < |habits| =>
      StreakEntry(habits[i].name, CurrentStreak(all, habits[i].id), habits[i].color))
  }

  /**
    With unique dates, if the record with the latest date does not have the
    habit done, the streak is 0.
   */
  lemma StreakZeroIfLatestMissed(all: seq<DayProgress>, id: string, k: nat)
    requires UniqueDates(all)
    requires k < |all|
    requires forall j :: 0 <= j < |all| ==> LexLe(all[j].date, all[k].date)
    requires !Done(all[k], id)
    ensures CurrentStreak(all, id) == 0
  {
    var sorted := SortByDate(all, true);
    var first := sorted[0];
    assert first in multiset(all);
    var j :| 0 <= j < |all| && all[j] == first;
    assert sorted[0] == all[k] by {
      assert all[k] in multiset(sorted);
      var i :| 0 <= i < |sorted| && sorted[i] == all[k];
      if i > 0 {
        assert !Precedes(sorted[i], sorted[0], true);
        assert !LexLess(first.date, all[k].date);
        assert LexLe(all[j].date, all[k].date);
        assert all[j].date == all[k].date;
        assert j == k;
      }
    }
  }

  /**
    The streak counts records, not calendar days: when every record has the
    habit done, the streak is the number of records, however far apart
    their dates lie.
   */
  lemma StreakIgnoresDateGaps(all: seq<DayProgress>, id: string)
    requires forall j :: 0 <= j < |all| ==> Done(all[j], id)
    ensures CurrentStreak(all, id) == |all|
  {
    var sorted := SortByDate(all, true);
    forall k | 0 <= k < |sorted| ensures Done(sorted[k], id) {
      assert sorted[k] in multiset(all);
    }
  }

  // ---------------------------------------------------------------------
  // Monthly summary
  // ---------------------------------------------------------------------

  function SumProgress(ps: seq<DayProgress>): int {
    if |ps| == 0 then 0 else ps[0].progress + SumProgress(ps[1..])
  }

  predicate AllPercentages(ps: seq<DayProgress>) {
    forall i :: 0 <= i < |ps| ==> 0 <= ps[i].progress <= 100
  }

  lemma {:induction false} SumProgressBounds(ps: seq<DayProgress>)
    requires AllPercentages(ps)
    ensures 0 <= SumProgress(ps) <= 100 * |ps|
  {
    if |ps| > 0 {
      SumProgressBounds(ps[1..]);
    }
  }

  /** The rounded mean of percentages is itself a percentage. */
  lemma RoundedMeanBounds(ps: seq<DayProgress>)
    requires |ps| > 0
    ensures AllPercentages(ps) ==> 0 <= RoundDiv(SumProgress(ps), |ps|) <= 100
  {
    if AllPercentages(ps) {
      var n, t := |ps|, SumProgress(ps);
      var q := RoundDiv(t, n);
      SumProgressBounds(ps);
      if q < 0 {
        MulMonotone(2 * n, q + 1, 0);
      } else if q > 100 {
        MulMonotone(2 * n, 101, q);
      }
    }
  }

  /** `avgProgress`: the mean percentage rounded half up, 0 for an empty month. */
  function AvgProgress(ps: seq<DayProgress>): (r: int)
    ensures |ps| == 0 ==> r == 0
    ensures |ps| > 0 ==> 2 * |ps| * r <= 2 * SumProgress(ps) + |ps| < 2 * |ps| * (r + 1)
    ensures AllPercentages(ps) ==> 0 <= r <= 100
  {
    if |ps| > 0 then
      RoundedMeanBounds(ps);
      RoundDiv(SumProgress(ps), |ps|)
    else 0
  }

  /** Record k has the highest percentage, and every earlier record a strictly lower one. */
  predicate IsFirstMax(ps: seq<DayProgress>, k: int) {
    && 0 <= k < |ps|
    && (forall j :: 0 <= j < |ps| ==> ps[j].progress <= ps[k].progress)
    && (forall j :: 0 <= j < k ==> ps[j].progress < ps[k].progress)
  }

  /** Record k has the lowest percentage, and every earlier record a strictly higher one. */
  predicate IsFirstMin(ps: seq<DayProgress>, k: int) {
    && 0 <= k < |ps|
    && (forall j :: 0 <= j < |ps| ==> ps[k].progress <= ps[j].progress)
    && (forall j :: 0 <= j < k ==> ps[k].progress < ps[j].progress)
  }

  /** The index `reduce` keeps for `bestDay`, continuing from record i with best index b. */
  function BestFrom(ps: seq<DayProgress>, i: nat, b: nat): (r: nat)
    requires b < |ps| && b <= i <= |ps|
    requires forall j :: 0 <= j < i ==> ps[j].progress <= ps[b].progress
    requires forall j :: 0 <= j < b ==> ps[j].progress < ps[b].progress
    ensures r < |ps|
    ensures forall j :: 0 <= j < |ps| ==> ps[j].progress <= ps[r].progress
    ensures forall j :: 0 <= j < r ==> ps[j].progress < ps[r].progress
    decreases |ps| - i
  {
    if i == |ps| then b
    else if ps[i].progress > JsOr(ps[b].progress, 0) then BestFrom(ps, i + 1, i)
    else BestFrom(ps, i + 1, b)
  }

  /** `bestDay`: absent for an empty month, else the first record of maximal percentage. */
  function BestDay(ps: seq<DayProgress>): (r: Option<DayProgress>)
    ensures r.None? <==> |ps| == 0
    ensures r.Some? ==> exists k :: IsFirstMax(ps, k) && r.value == ps[k]
  {
    if |ps| == 0 then None else Some(ps[BestFrom(ps, 0, 0)])
  }

  /** The index `reduce` keeps for `worstDay` as written, where a current worst of 0 is compared as 100. */
  function WorstFromAsWritten(ps: seq<DayProgress>, i: nat, w: nat): (r: nat)
    requires w < |ps| && i <= |ps|
    ensures r < |ps|
    ensures r == w || i <= r
    decreases |ps| - i
  {
    if i == |ps| then w
    else if ps[i].progress < JsOr(ps[w].progress, 100) then WorstFromAsWritten(ps, i + 1, i)
    else WorstFromAsWritten(ps, i + 1, w)
  }

  /** `worstDay` exactly as the source computes it. */
  function WorstDayAsWritten(ps: seq<DayProgress>): (r: Option<DayProgress>)
    ensures r.None? <==> |ps| == 0
    ensures r.Some? ==> r.value in ps
  {
    if |ps| == 0 then None else Some(ps[WorstFromAsWritten(ps, 0, 0)])
  }

  /** The corrected `worstDay` fold: replace only by a strictly smaller percentage. */
  function WorstFrom(ps: seq<DayProgress>, i: nat, w: nat): (r: nat)
    requires w < |ps| && w <= i <= |ps|
    requires forall j :: 0 <= j < i ==> ps[w].progress <= ps[j].progress
    requires forall j :: 0 <= j < w ==> ps[w].progress < ps[j].progress
    ensures r < |ps|
    ensures forall j :: 0 <= j < |ps| ==> ps[r].progress <= ps[j].progress
    ensures forall j :: 0 <= j < r ==> ps[r].progress < ps[j].progress
    decreases |ps| - i
  {
    if i == |ps| then w
    else if ps[i].progress < ps[w].progress then WorstFrom(ps, i + 1, i)
    else WorstFrom(ps, i + 1, w)
  }

  /** `worstDay` as intended: absent for an empty month, else the first record of minimal percentage. */
  function WorstDay(ps: seq<DayProgress>): (r: Option<DayProgress>)
    ensures r.None? <==> |ps| == 0
    ensures r.Some? ==> exists k :: IsFirstMin(ps, k) && r.value == ps[k]
  {
    if |ps| == 0 then None else Some(ps[WorstFrom(ps, 0, 0)])
  }

  /** Without 0% records the `|| 100` default never applies and the two folds agree. */
  lemma {:induction false} WorstFoldsAgreeWithoutZero(ps: seq<DayProgress>, i: nat, w: nat)
    requires w < |ps| && w <= i <= |ps|
    requires forall j :: 0 <= j < i ==> ps[w].progress <= ps[j].progress
    requires forall j :: 0 <= j < w ==> ps[w].progress < ps[j].progress
    requires forall j :: 0 <= j < |ps| ==> ps[j].progress != 0
    ensures WorstFromAsWritten(ps, i, w) == WorstFrom(ps, i, w)
    decreases |ps| - i
  {
    if i < |ps| {
      if ps[i].progress < ps[w].progress {
        WorstFoldsAgreeWithoutZero(ps, i + 1, i);
      } else {
        WorstFoldsAgreeWithoutZero(ps, i + 1, w);
      }
    }
  }

  lemma WorstDayAgreesWithoutZero(ps: seq<DayProgress>)
    requires forall j :: 0 <= j < |ps| ==> ps[j].progress != 0
    ensures WorstDayAsWritten(ps) == WorstDay(ps)
  {
    if |ps| > 0 {
      WorstFoldsAgreeWithoutZero(ps, 0, 0);
    }
  }

  /** As written, a 0% day is displaced by any later day below 100%: [0%, 50%] reports the 50% day. */
  lemma WorstDayAsWrittenSkipsZero()
    ensures var ps := [DayProgress("2024-06-01", map[], 0), DayProgress("2024-06-02", map[], 50)];
      WorstDayAsWritten(ps) == Some(ps[1]) && WorstDay(ps) == Some(ps[0])
  {
    var ps := [DayProgress("2024-06-01", map[], 0), DayProgress("2024-06-02", map[], 50)];
    assert WorstFromAsWritten(ps, 0, 0) == 1;
    assert WorstFrom(ps, 0, 0) == 0;
  }

  /** The positions of the records at exactly 100%. */
  function PerfectIndices(ps: seq<DayProgress>): set<int> {
    set j | 0 <= j < |ps| && ps[j].progress == 100
  }

  lemma PerfectIndicesSnoc(ps: seq<DayProgress>)
    requires |ps| > 0
    ensures var k := |ps| - 1;
      && k !in PerfectIndices(ps[..k])
      && PerfectIndices(ps) == PerfectIndices(ps[..k]) + (if ps[k].progress == 100 then {k} else {})
  {
    var k := |ps| - 1;
    var init := ps[..k];
    assert forall j :: 0 <= j < k ==> init[j] == ps[j];
  }

  /** `perfectDays`: the number of records at exactly 100%. */
  function PerfectDays(ps: seq<DayProgress>): (n: nat)
    ensures n == |PerfectIndices(ps)|
    ensures n <= |ps|
    ensures n == 0 <==> forall j :: 0 <= j < |ps| ==> ps[j].progress != 100
    ensures n == |ps| <==> forall j :: 0 <= j < |ps| ==> ps[j].progress == 100
  {
    if |ps| == 0 then 0
    else
      var k := |ps| - 1;
      var init := ps[..k];
      var rest := PerfectDays(init);
      PerfectIndicesSnoc(ps);
      assert forall j :: 0 <= j < k ==> init[j] == ps[j];
      rest + (if ps[k].progress == 100 then 1 else 0)
  }

  datatype Summary = Summary(
    avgProgress: int,
    bestDay: Option<DayProgress>,
    worstDay: Option<DayProgress>,
    perfectDays: nat,
    totalDays: nat)

  /**
    The monthly summary over the month's records, as the source computes
    it. `sort` works in place, so the reductions run over the records in
    ascending date order, and "first" on ties means earliest date. The
    worst day is the `|| 100` reduce as written.
   */
  function MonthSummary(sortedMonth: seq<DayProgress>): (r: Summary)
    ensures r.totalDays == |sortedMonth|
    ensures r.totalDays == 0 ==> r.avgProgress == 0 && r.bestDay.None? && r.worstDay.None? && r.perfectDays == 0
    ensures r.totalDays > 0 ==> r.avgProgress == RoundDiv(SumProgress(sortedMonth), r.totalDays)
    ensures AllPercentages(sortedMonth) ==> 0 <= r.avgProgress <= 100
    ensures r.bestDay.None? <==> |sortedMonth| == 0
    ensures r.bestDay.Some? ==> exists k :: IsFirstMax(sortedMonth, k) && r.bestDay.value == sortedMonth[k]
    ensures r.worstDay.None? <==> |sortedMonth| == 0
    ensures r.worstDay.Some? ==> r.worstDay.value in sortedMonth
    ensures (forall j :: 0 <= j < |sortedMonth| ==> sortedMonth[j].progress != 0) && r.worstDay.Some? ==>
      exists k :: IsFirstMin(sortedMonth, k) && r.worstDay.value == sortedMonth[k]
    ensures r.bestDay.Some? && r.worstDay.Some? ==> r.worstDay.value.progress <= r.bestDay.value.progress
    ensures r.perfectDays == |PerfectIndices(sortedMonth)|
  {
    WorstAtMostBest(sortedMonth);
    WorstDayAsWrittenWithoutZero(sortedMonth);
    Summary(AvgProgress(sortedMonth), BestDay(sortedMonth), WorstDayAsWritten(sortedMonth),
            PerfectDays(sortedMonth), |sortedMonth|)
  }

  /** Without a 0% day the reported worst day is the first record of minimal percentage. */
  lemma WorstDayAsWrittenWithoutZero(ps: seq<DayProgress>)
    ensures (forall j :: 0 <= j < |ps| ==> ps[j].progress != 0) && WorstDayAsWritten(ps).Some? ==>
      exists k :: IsFirstMin(ps, k) && WorstDayAsWritten(ps).value == ps[k]
  {
    if forall j :: 0 <= j < |ps| ==> ps[j].progress != 0 {
      WorstDayAgreesWithoutZero(ps);
    }
  }

  /** The reported worst day is one of the records, so it never exceeds the best one. */
  lemma WorstAtMostBest(ps: seq<DayProgress>)
    ensures BestDay(ps).Some? && WorstDayAsWritten(ps).Some? ==>
      WorstDayAsWritten(ps).value.progress <= BestDay(ps).value.progress
  {
    if |ps| > 0 {
      var w := WorstDayAsWritten(ps).value;
      var i :| 0 <= i < |ps| && ps[i] == w;
    }
  }

  /** The summary with the intended worst day: the first record of minimal percentage. */
  function IntendedMonthSummary(sortedMonth: seq<DayProgress>): (r: Summary)
    ensures r.worstDay.None? <==> |sortedMonth| == 0
    ensures r.worstDay.Some? ==> exists k :: IsFirstMin(sortedMonth, k) && r.worstDay.value == sortedMonth[k]
    ensures r.(worstDay := MonthSummary(sortedMonth).worstDay) == MonthSummary(sortedMonth)
  {
    MonthSummary(sortedMonth).(worstDay := WorstDay(sortedMonth))
  }

  /** The summaries differ only on months with a 0% day. */
  lemma SummariesAgreeWithoutZero(sortedMonth: seq<DayProgress>)
    requires forall j :: 0 <= j < |sortedMonth| ==> sortedMonth[j].progress != 0
    ensures IntendedMonthSummary(sortedMonth) == MonthSummary(sortedMonth)
  {
    WorstDayAgreesWithoutZero(sortedMonth);
  }

  // ---------------------------------------------------------------------
  // Heatmap
  // ---------------------------------------------------------------------

  datatype HeatCell = HeatCell(date: int, progress: int)

  /** The 30 calendar days ending today, oldest first. */
  function HeatmapDates(today: Date): (ds: seq<Date>)
    requires ValidDate(today)
    ensures |ds| == 30
    ensures forall k :: 0 <= k < 30 ==> ValidDate(ds[k])
    ensures ds[29] == today
  {
    seq(30, k requires 0 <= k < 30 => DaysBefore(today, 29 - k))
  }

  /** The heatmap dates are consecutive calendar days. */
  lemma HeatmapDatesConsecutive(today: Date, k: nat)
    requires ValidDate(today)
    requires k < 29
    ensures NextDay(HeatmapDates(today)[k]) == HeatmapDates(today)[k + 1]
  {
    DaysBeforeStep(today, 28 - k);
  }

  /** `heatmapData`: one cell per day of the window, its stored percentage or 0 without a record. */
  function Heatmap(all: seq<DayProgress>, today: Date): (r: seq<HeatCell>)
    requires ValidDate(today)
    ensures |r| == 30
    ensures forall k :: 0 <= k < 30 ==> r[k].date == HeatmapDates(today)[k].day
    ensures forall k :: 0 <= k < 30 ==>
      ((forall j :: 0 <= j < |all| ==> all[j].date != FormatDate(HeatmapDates(today)[k])) ==> r[k].progress == 0)
    ensures forall k, i :: (0 <= k < 30 && 0 <= i < |all| && all[i].date == FormatDate(HeatmapDates(today)[k])
      && (forall j :: 0 <= j < i ==> all[j].date != all[i].date)) ==> r[k].progress == all[i].progress
  {
    var ds := HeatmapDates(today);
    seq(30, k requires 0 <= k < 30 => HeatCell(ds[k].day, ProgressOrZero(all, FormatDate(ds[k]))))
  }

  // ---------------------------------------------------------------------
  // Colour bands
  // ---------------------------------------------------------------------

  /** The five colour bands shared by the heatmap and the calendar grid. */
  datatype Band = Empty | Low | Medium | High | Complete

  function BandRank(b: Band): int {
    match b
    case Empty => 0
    case Low => 1
    case Medium => 2
    case High => 3
    case Complete => 4
  }

  /** `getHeatmapColor`: 0, below 40, below 70, below 100, and the rest. */
  function HeatmapBand(progress: int): (b: Band)
    ensures b == Empty <==> progress == 0
    ensures b == Complete <==> progress >= 100
    ensures b == Low <==> progress != 0 && progress < 40
    ensures b == Medium <==> 40 <= progress < 70
    ensures b == High <==> 70 <= progress < 100
  {
    if progress == 0 then Empty
    else if progress < 40 then Low
    else if progress < 70 then Medium
    else if progress < 100 then High
    else Complete
  }

  /** On percentages the bands never go down as the percentage goes up. */
  lemma HeatmapBandMonotone(p: int, q: int)
    requires 0 <= p <= q
    ensures BandRank(HeatmapBand(p)) <= BandRank(HeatmapBand(q))
  {
  }

  // ---------------------------------------------------------------------
  // The whole view model
  // ---------------------------------------------------------------------

  datatype AnalyticsView = AnalyticsView(
    dailyData: seq<DailyPoint>,
    streakData: seq<StreakEntry>,
    heatmapData: seq<HeatCell>,
    summary: Summary)

  /** The month's records in ascending date order (the in-place sort of the source). */
  function SortedMonth(all: seq<DayProgress>, ym: YearMonth): (r: seq<DayProgress>)
    ensures multiset(r) == multiset(MonthProgress(all, ym))
    ensures SortedBy(r, false)
    ensures forall i :: 0 <= i < |r| ==> InMonth(r[i], ym)
  {
    var r := SortByDate(MonthProgress(all, ym), false);
    forall i | 0 <= i < |r| ensures InMonth(r[i], ym) {
      assert r[i] in multiset(MonthProgress(all, ym));
    }
    r
  }

  /** The `useMemo` body: every derivation for the month of `today`. */
  function ComputeAnalytics(s: Store, today: Date): (v: AnalyticsView)
    requires ValidDate(today)
    ensures var ym := YearMonth(today.year, today.month);
      && v.summary.totalDays == |MonthProgress(GetAllProgress(s), ym)|
      && |v.dailyData| == v.summary.totalDays
      && v.dailyData == DailyData(SortedMonth(GetAllProgress(s), ym), ym)
      && v.summary == MonthSummary(SortedMonth(GetAllProgress(s), ym))
      && (v.summary.bestDay.Some? ==> InMonth(v.summary.bestDay.value, ym))
      && (v.summary.worstDay.Some? ==> InMonth(v.summary.worstDay.value, ym))
    ensures |v.streakData| == |GetHabits(s)|
    ensures forall i :: 0 <= i < |v.streakData| ==>
      v.streakData[i].streak == CurrentStreak(GetAllProgress(s), GetHabits(s)[i].id)
    ensures |v.heatmapData| == 30
    ensures forall k, i :: (0 <= k < 30 && 0 <= i < |GetAllProgress(s)|
      && GetAllProgress(s)[i].date == FormatDate(HeatmapDates(today)[k])
      && (forall j :: 0 <= j < i ==> GetAllProgress(s)[j].date != GetAllProgress(s)[i].date)) ==>
      v.heatmapData[k].progress == GetAllProgress(s)[i].progress
    ensures forall k :: 0 <= k < 30 ==>
      ((forall j :: 0 <= j < |GetAllProgress(s)| ==> GetAllProgress(s)[j].date != FormatDate(HeatmapDates(today)[k]))
        ==> v.heatmapData[k].progress == 0)
  {
    var all := GetAllProgress(s);
    var ym := YearMonth(today.year, today.month);
    var month := SortedMonth(all, ym);
    assert |month| == |multiset(month)| == |MonthProgress(all, ym)|;
    var summary := MonthSummary(month);
    assert summary.bestDay.Some? ==> InMonth(summary.bestDay.value, ym);
    assert summary.worstDay.Some? ==> InMonth(summary.worstDay.value, ym);
    AnalyticsView(DailyData(month, ym), StreakData(GetHabits(s), all), Heatmap(all, today), summary)
  }
}

=== FILE: calendar_view.dfy ===
/**
  The month calendar of src/components/CalendarView.tsx: month navigation,
  the per-day progress and colour band, and which grid cells can be
  selected to open the day dialog.
 */
module CalendarView {
  import opened Common
  import opened DateUtils
  import opened Storage
  import opened Analytics

  /** The view's state: the date whose month is shown, and the day whose dialog is open. */
  datatype Calendar = Calendar(current: Date, selected: Option<Date>)

  /** The month on display. */
  function Shown(c: Calendar): (ym: YearMonth)
    requires ValidDate(c.current)
    ensures ym.Valid()
  {
    YearMonth(c.current.year, c.current.month)
  }

  /** The view opens on today with no dialog. */
  function Open(today: Date): (c: Calendar)
    requires ValidDate(today)
    ensures ValidDate(c.current) && Shown(c) == YearMonth(today.year, today.month) && c.selected == None
  {
    Calendar(today, None)
  }

  /** `previousMonth`: day 1 of the month before; January goes to December of the year before. */
  function PreviousMonth(c: Calendar): (r: Calendar)
    requires ValidDate(c.current)
    ensures ValidDate(r.current) && r.current.day == 1
    ensures c.current.month > 0 ==> r.current == Date(c.current.year, c.current.month - 1, 1)
    ensures c.current.month == 0 ==> r.current == Date(c.current.year - 1, 11, 1)
    ensures r.selected == c.selected
  {
    var p := Shown(c).Prev();
    c.(current := Date(p.year, p.month, 1))
  }

  /** `nextMonth`: day 1 of the month after; December goes to January of the year after. */
  function NextMonth(c: Calendar): (r: Calendar)
    requires ValidDate(c.current)
    ensures ValidDate(r.current) && r.current.day == 1
    ensures c.current.month < 11 ==> r.current == Date(c.current.year, c.current.month + 1, 1)
    ensures c.current.month == 11 ==> r.current == Date(c.current.year + 1, 0, 1)
    ensures r.selected == c.selected
  {
    var n := Shown(c).Next();
    c.(current := Date(n.year, n.month, 1))
  }

  /** Back then forward returns to the same month, on its first day. */
  lemma PreviousThenNext(c: Calendar)
    requires ValidDate(c.current)
    ensures NextMonth(PreviousMonth(c)).current == Date(c.current.year, c.current.month, 1)
  {
  }

  /** Twelve steps forward land on the same month of the next year. */
  lemma {:induction false} TwelveMonthsAhead(c: Calendar)
    requires ValidDate(c.current)
    ensures Iterate(c, 12).current == Date(c.current.year + 1, c.current.month, 1)
  {
    var m := c.current.month;
    var k := 12 - m;
    StepsWithinYear(c, 11 - m);
    var at11 := Iterate(c, 11 - m);
    assert at11.current.month == 11 && at11.current.year == c.current.year;
    IterateSplit(c, 11 - m, 1);
    var jan := Iterate(c, k);
    assert jan.current == Date(c.current.year + 1, 0, 1);
    StepsWithinYear(jan, m);
    IterateSplit(c, k, m);
  }

  /** `nextMonth` pressed n times. */
  function Iterate(c: Calendar, n: nat): (r: Calendar)
    requires ValidDate(c.current)
    ensures ValidDate(r.current)
    decreases n
  {
    if n == 0 then c else Iterate(NextMonth(c), n - 1)
  }

  lemma {:induction false} IterateSplit(c: Calendar, a: nat, b: nat)
    requires ValidDate(c.current)
    ensures Iterate(c, a + b) == Iterate(Iterate(c, a), b)
    decreases a
  {
    if a > 0 {
      IterateSplit(NextMonth(c), a - 1, b);
    }
  }

  /** While December is not passed, n steps advance the month by n within the year. */
  lemma {:induction false} StepsWithinYear(c: Calendar, n: nat)
    requires ValidDate(c.current)
    requires c.current.month + n <= 11
    ensures n > 0 || c.current.day == 1 ==>
      Iterate(c, n).current == Date(c.current.year, c.current.month + n, 1)
    ensures Iterate(c, n).current.year == c.current.year
    ensures Iterate(c, n).current.month == c.current.month + n
    decreases n
  {
    if n > 0 {
      StepsWithinYear(NextMonth(c), n - 1);
    }
  }

  /** `getDayProgress`: the stored percentage for the day's key, 0 without a record. */
  function GetDayProgress(s: Store, d: Date): (p: int)
    requires ValidDate(d)
    ensures GetProgressForDate(s, FormatDate(d)).None? ==> p == 0
    ensures GetProgressForDate(s, FormatDate(d)).Some? ==> p == GetProgressForDate(s, FormatDate(d)).value.progress
  {
    match GetProgressForDate(s, FormatDate(d))
    case None => 0
    case Some(rec) => JsOr(rec.progress, 0)
  }

  /** `getProgressColor`: the same five ranges as the analytics heatmap. */
  function ProgressBand(progress: int): (b: Band)
    ensures b == Empty <==> progress == 0
    ensures b == Low <==> progress != 0 && progress < 40
    ensures b == Medium <==> 40 <= progress < 70
    ensures b == High <==> 70 <= progress < 100
    ensures b == Complete <==> progress >= 100
  {
    if progress == 0 then Empty
    else if progress < 40 then Low
    else if progress < 70 then Medium
    else if progress < 100 then High
    else Complete
  }

  /** The calendar and the heatmap put every percentage in the same band. */
  lemma BandsAgree(progress: int)
    ensures ProgressBand(progress) == HeatmapBand(progress)
  {
  }

  /** `isCurrentMonth`: only the month index is compared, not the year. */
  predicate IsCurrentMonth(c: Calendar, d: Date) {
    d.month == c.current.month
  }

  /** One button of the grid. */
  datatype Cell = Cell(date: Date, progress: int, band: Band, disabled: bool, isToday: bool, caption: Option<int>)

  /** The grid of the shown month: one cell per `getMonthDays` entry. */
  function Grid(c: Calendar, s: Store, today: Date): (cells: seq<Cell>)
    requires ValidDate(c.current) && ValidDate(today)
    ensures |cells| == |GetMonthDays(Shown(c))|
    ensures forall i :: 0 <= i < |cells| ==>
      && cells[i].date == GetMonthDays(Shown(c))[i]
      && cells[i].progress == GetDayProgress(s, cells[i].date)
      && cells[i].band == ProgressBand(cells[i].progress)
      && (cells[i].isToday <==> cells[i].date == today)
  {
    var days := GetMonthDays(Shown(c));
    seq(|days|, i requires 0 <= i < |days| => MakeCell(c, s, today, days[i]))
  }

  function MakeCell(c: Calendar, s: Store, today: Date, d: Date): (cell: Cell)
    requires ValidDate(d) && ValidDate(today)
    ensures cell.date == d && cell.progress == GetDayProgress(s, d)
    ensures cell.band == ProgressBand(cell.progress)
    ensures cell.isToday <==> d == today
    ensures cell.disabled <==> !IsCurrentMonth(c, d)
    ensures cell.caption.Some? <==> cell.progress > 0 && IsCurrentMonth(c, d)
    ensures cell.caption.Some? ==> cell.caption.value == cell.progress
  {
    var p := GetDayProgress(s, d);
    IsSameDayIffEqual(d, today);
    Cell(d, p, ProgressBand(p), !IsCurrentMonth(c, d), IsSameDay(d, today),
         if p > 0 && IsCurrentMonth(c, d) then Some(p) else None)
  }

  /**
    Exactly the leading padding cells are disabled, and only enabled cells
    may show a percentage caption.
   */
  lemma GridDisabledIsPadding(c: Calendar, s: Store, today: Date, i: int)
    requires ValidDate(c.current) && ValidDate(today)
    requires 0 <= i < |Grid(c, s, today)|
    ensures var cell := Grid(c, s, today)[i];
      && (cell.disabled <==> i < DayOfWeek(Date(c.current.year, c.current.month, 1)))
      && (cell.caption.Some? <==> cell.progress > 0 && !cell.disabled)
  {
    var days := GetMonthDays(Shown(c));
    var cell := Grid(c, s, today)[i];
    assert cell == MakeCell(c, s, today, days[i]);
  }

  /** `onClick`: only a day of the shown month opens the dialog. */
  function Click(c: Calendar, d: Date): (r: Calendar)
    ensures r.current == c.current
    ensures IsCurrentMonth(c, d) ==> r.selected == Some(d)
    ensures !IsCurrentMonth(c, d) ==> r == c
  {
    if IsCurrentMonth(c, d) then c.(selected := Some(d)) else c
  }

  /** Closing the dialog clears the selection. */
  function CloseDialog(c: Calendar): (r: Calendar)
    ensures r.current == c.current && r.selected == None
  {
    c.(selected := None)
  }

  /** Clicking any grid cell either changes nothing or selects a day of the shown month and year. */
  lemma ClickSelectsShownMonth(c: Calendar, s: Store, today: Date, i: int)
    requires ValidDate(c.current) && ValidDate(today)
    requires 0 <= i < |Grid(c, s, today)|
    ensures var r := Click(c, Grid(c, s, today)[i].date);
      r == c || (r.selected.Some? && r.selected.value.year == c.current.year
                 && r.selected.value.month == c.current.month && ValidDate(r.selected.value))
  {
    GridDisabledIsPadding(c, s, today, i);
  }
}

=== FILE: common.dfy ===
/**
  Shared vocabulary of the habit-tracker model: an Option type, the two
  pieces of JavaScript number semantics the code relies on (`x || d` on a
  number and `Math.round`), decimal rendering of naturals as `String(n)`
  produces it, and the "blank after trim()" test used by every name guard.
 */
module Common {

  datatype Option<T> = None | Some(value: T)

  /** A `toast.success` / `toast.error` message shown by the habit editors. */
  datatype Toast = Success(text: string) | Failure(text: string)

  /** JavaScript `x || d` for a number `x` that is never NaN: 0 is falsy. */
  function JsOr(x: int, d: int): (r: int)
    ensures x != 0 ==> r == x
    ensures x == 0 ==> r == d
  {
    if x == 0 then d else x
  }

  /** `Math.max`. */
  function Max(a: int, b: int): (r: int)
    ensures r >= a && r >= b
    ensures r == a || r == b
  {
    if a >= b then a else b
  }

  /**
    `Math.round(num / den)` for a positive denominator, computed exactly.
    `Math.round(x)` is `floor(x + 1/2)` (halves go up), and Dafny's `/` with a
    positive divisor is floor division, so no sign restriction is needed.
    The result is characterised as the integer r with
    r - 1/2 <= num/den < r + 1/2.
   */
  function RoundDiv(num: int, den: int): (r: int)
    requires den > 0
    ensures 2 * den * r <= 2 * num + den < 2 * den * (r + 1)
  {
    (2 * num + den) / (2 * den)
  }

  /** Multiplying by a positive factor preserves order. */
  lemma MulMonotone(c: int, a: int, b: int)
    requires c > 0
    requires a <= b
    ensures c * a <= c * b
  {
  }

  /** Only one integer satisfies the rounding bracket, so RoundDiv is determined by it. */
  lemma RoundDivUnique(num: int, den: int, r: int)
    requires den > 0
    requires 2 * den * r <= 2 * num + den < 2 * den * (r + 1)
    ensures r == RoundDiv(num, den)
  {
    var q := RoundDiv(num, den);
    if r < q {
      MulMonotone(2 * den, r + 1, q);
    } else if r > q {
      MulMonotone(2 * den, q + 1, r);
    }
  }
  /** A whole count over itself rounds to exactly 100%. */
  lemma RoundDivFull(n: int)
    requires n > 0
    ensures RoundDiv(100 * n, n) == 100
  {
    assert 2 * n * 100 <= 2 * (100 * n) + n < 2 * n * 101;
    RoundDivUnique(100 * n, n, 100);
  }


  /** A percentage of parts out of a whole lies in [0, 100] when 0 <= parts <= whole. */
  lemma RoundDivPercentBounds(parts: int, whole: int)
    requires 0 <= parts <= whole
    requires whole > 0
    ensures 0 <= RoundDiv(100 * parts, whole) <= 100
  {
    var r := RoundDiv(100 * parts, whole);
    if r < 0 {
      MulMonotone(2 * whole, r + 1, 0);
    } else if r > 100 {
      MulMonotone(2 * whole, 101, r);
    }
  }

  /** The decimal digit character for 0..9. */
  function Digit(n: int): (c: char)
    requires 0 <= n < 10
    ensures '0' <= c <= '9'
    ensures c as int - '0' as int == n
  {
    (48 + n) as char
  }

  predicate IsDigit(c: char) {
    '0' <= c <= '9'
  }

  function DigitValue(c: char): (n: int)
    requires IsDigit(c)
    ensures 0 <= n < 10
    ensures Digit(n) == c
  {
    c as int - 48
  }

  predicate AllDigits(s: string) {
    forall i :: 0 <= i < |s| ==> IsDigit(s[i])
  }

  /** The value of a (big-endian) decimal digit string; "" has value 0. */
  function DigitsValue(s: string): (n: nat)
    requires AllDigits(s)
  {
    if |s| == 0 then 0 else 10 * DigitsValue(s[..|s| - 1]) + DigitValue(s[|s| - 1])
  }

  /** `String(n)` for a natural number: shortest decimal form, no leading zeros. */
  function NatToString(n: nat): (s: string)
    ensures |s| >= 1
    ensures AllDigits(s)
    ensures s[0] == '0' ==> n == 0
    ensures n < 10 <==> |s| == 1
    ensures 10 <= n < 100 <==> |s| == 2
    ensures 1000 <= n < 10000 <==> |s| == 4
  {
    if n < 10 then [Digit(n)] else NatToString(n / 10) + [Digit(n % 10)]
  }

  /** Reading back the digits of `String(n)` gives n. */
  lemma {:induction false} NatToStringValue(n: nat)
    ensures DigitsValue(NatToString(n)) == n
  {
    var s := NatToString(n);
    if n >= 10 {
      NatToStringValue(n / 10);
      assert s[..|s| - 1] == NatToString(n / 10);
    }
  }

  /** `String(n)` is injective on naturals. */
  lemma NatToStringInjective(a: nat, b: nat)
    requires NatToString(a) == NatToString(b)
    ensures a == b
  {
    NatToStringValue(a);
    NatToStringValue(b);
  }

  /** `String(n)` for any integer: a leading '-' for negatives. */
  function IntToString(n: int): (s: string)
    ensures |s| >= 1
    ensures n >= 0 ==> s == NatToString(n)
    ensures n < 0 ==> s[0] == '-'
  {
    if n < 0 then "-" + NatToString(-n) else NatToString(n)
  }

  /**
    The characters JavaScript's `String.prototype.trim` removes: the ASCII
    white space and line terminators, NBSP, BOM and the Unicode space
    separators.
   */
  predicate IsJsWhitespace(c: char) {
    c == ' ' || c == '\t' || c == '\n' || c == '\r' || c == '\U{B}' || c == '\U{C}'
    || c == '\U{A0}' || c == '\U{FEFF}' || c == '\U{1680}' || ('\U{2000}' <= c <= '\U{200A}')
    || c == '\U{2028}' || c == '\U{2029}' || c == '\U{202F}' || c == '\U{205F}' || c == '\U{3000}'
  }

  /** `s.trim()`: drop leading and trailing white space. */
  function Trim(s: string): (t: string)
    ensures |t| <= |s|
    ensures |t| > 0 ==> !IsJsWhitespace(t[0]) && !IsJsWhitespace(t[|t| - 1])
    decreases |s|
  {
    if |s| > 0 && IsJsWhitespace(s[0]) then Trim(s[1..])
    else if |s| > 0 && IsJsWhitespace(s[|s| - 1]) then Trim(s[..|s| - 1])
    else s
  }

  /** Every character is white space, i.e. nothing would be left after trimming. */
  predicate IsBlank(s: string) {
    forall i :: 0 <= i < |s| ==> IsJsWhitespace(s[i])
  }

  /** `s.trim() === ''` exactly when `s` is made of white space only. */
  lemma {:induction false} TrimEmptyIffBlank(s: string)
    ensures Trim(s) == "" <==> IsBlank(s)
    decreases |s|
  {
    if |s| > 0 && IsJsWhitespace(s[0]) {
      TrimEmptyIffBlank(s[1..]);
      assert IsBlank(s) <==> IsBlank(s[1..]) by {
        if IsBlank(s[1..]) {
          forall i | 0 <= i < |s| ensures IsJsWhitespace(s[i]) {
            if i > 0 { assert s[i] == s[1..][i - 1]; }
          }
        }
      }
    } else if |s| > 0 && IsJsWhitespace(s[|s| - 1]) {
      // s[0] is not white space, so neither s nor its prefix is blank
      assert |s| >= 2;
      assert s[..|s| - 1][0] == s[0];
      TrimEmptyIffBlank(s[..|s| - 1]);
    } else if |s| > 0 {
      assert !IsJsWhitespace(s[0]);
    }
  }
}

=== FILE: date_utils.dfy ===
/**
  Calendar arithmetic of src/lib/dateUtils.ts on plain (year, month, day)
  values of the proleptic Gregorian calendar. `month` is 0-based, as
  JavaScript's `getMonth()` returns it; `day` is 1-based.
 */
module DateUtils {
  import opened Common
  import opened StringOrder

  datatype Date = Date(year: int, month: int, day: int)

  /** A calendar month, 0-based like `getMonth()`. */
  datatype YearMonth = YearMonth(year: int, month: int)
  {
    predicate Valid() {
      0 <= month < 12
    }

    /** The month before; January wraps to December of the year before. */
    function Prev(): (r: YearMonth)
      requires Valid()
      ensures r.Valid()
      ensures r.Next() == this
    {
      if month == 0 then YearMonth(year - 1, 11) else YearMonth(year, month - 1)
    }

    /** The month after; December wraps to January of the year after. */
    function Next(): (r: YearMonth)
      requires Valid()
      ensures r.Valid()
      ensures month < 11 ==> r == YearMonth(year, month + 1)
      ensures month == 11 ==> r == YearMonth(year + 1, 0)
    {
      if month == 11 then YearMonth(year + 1, 0) else YearMonth(year, month + 1)
    }
  }

  predicate IsLeapYear(y: int) {
    y % 4 == 0 && (y % 100 != 0 || y % 400 == 0)
  }

  /** Gregorian month lengths; `new Date(year, month + 1, 0).getDate()` in the source. */
  function DaysInMonth(y: int, m: int): (n: int)
    requires 0 <= m < 12
    ensures 28 <= n <= 31
    ensures m == 1 ==> (n == 29 <==> IsLeapYear(y))
    ensures m != 1 ==> (n == 30 <==> m in {3, 5, 8, 10})
  {
    if m == 1 then (if IsLeapYear(y) then 29 else 28)
    else if m in {3, 5, 8, 10} then 30
    else 31
  }

  /** The field values a JavaScript Date can report: always normalised. */
  predicate ValidDate(d: Date) {
    0 <= d.month < 12 && 1 <= d.day <= DaysInMonth(d.year, d.month)
  }

  /** The calendar day after `d`. */
  function NextDay(d: Date): (r: Date)
    requires ValidDate(d)
    ensures ValidDate(r)
  {
    if d.day < DaysInMonth(d.year, d.month) then Date(d.year, d.month, d.day + 1)
    else if d.month < 11 then Date(d.year, d.month + 1, 1)
    else Date(d.year + 1, 0, 1)
  }

  /** The calendar day before `d`. */
  function PrevDay(d: Date): (r: Date)
    requires ValidDate(d)
    ensures ValidDate(r)
  {
    if d.day > 1 then Date(d.year, d.month, d.day - 1)
    else if d.month > 0 then Date(d.year, d.month - 1, DaysInMonth(d.year, d.month - 1))
    else Date(d.year - 1, 11, 31)
  }

  /** NextDay and PrevDay undo each other. */
  lemma NextPrevInverse(d: Date)
    requires ValidDate(d)
    ensures NextDay(PrevDay(d)) == d
    ensures PrevDay(NextDay(d)) == d
  {
  }

  /** `d` moved `k` days into the past (`date.setDate(date.getDate() - k)`). */
  function DaysBefore(d: Date, k: nat): (r: Date)
    requires ValidDate(d)
    ensures ValidDate(r)
  {
    if k == 0 then d else PrevDay(DaysBefore(d, k - 1))
  }

  /** Walking one day forward from k + 1 days back reaches k days back. */
  lemma DaysBeforeStep(d: Date, k: nat)
    requires ValidDate(d)
    ensures NextDay(DaysBefore(d, k + 1)) == DaysBefore(d, k)
  {
    NextPrevInverse(DaysBefore(d, k));
  }

  /** Chronological order on dates. */
  predicate Before(a: Date, b: Date) {
    a.year < b.year
    || (a.year == b.year && a.month < b.month)
    || (a.year == b.year && a.month == b.month && a.day < b.day)
  }

  lemma NextDayIsLater(d: Date)
    requires ValidDate(d)
    ensures Before(d, NextDay(d))
  {
  }

  // ---------------------------------------------------------------------
  // Day of week (`getDay()`, Sunday = 0)
  // ---------------------------------------------------------------------

  /** Month offsets of Sakamoto's day-of-week method. */
  function MonthOffset(m: int): int
    requires 0 <= m < 12
  {
    [0, 3, 2, 5, 0, 3, 5, 1, 4, 6, 2, 4][m]
  }

  /** Days contributed by whole years, modulo 7: y + leap days up to and including y. */
  function YearTerm(y: int): int {
    y + y / 4 - y / 100 + y / 400
  }

  /** Sakamoto's day count: January and February count as months of the previous year. */
  function DayNumber(d: Date): int
    requires ValidDate(d)
  {
    var y := if d.month < 2 then d.year - 1 else d.year;
    YearTerm(y) + MonthOffset(d.month) + d.day
  }

  /** `date.getDay()`: 0 for Sunday through 6 for Saturday. */
  function DayOfWeek(d: Date): (w: int)
    requires ValidDate(d)
    ensures 0 <= w < 7
  {
    DayNumber(d) % 7
  }

  /** Quotient and remainder of floor division are the unique such pair. */
  lemma DivUnique(n: int, k: int, q: int, r: int)
    requires k > 0 && 0 <= r < k
    requires n == k * q + r
    ensures n / k == q && n % k == r
  {
    var q', r' := n / k, n % k;
    assert k * (q - q') == r' - r;
    if q - q' >= 1 {
      MulMonotone(k, 1, q - q');
    } else if q - q' <= -1 {
      MulMonotone(k, q - q', -1);
    }
  }

  /** Floor division steps by one exactly at multiples of k. */
  lemma DivStep(y: int, k: int)
    requires k > 0
    ensures y / k - (y - 1) / k == (if y % k == 0 then 1 else 0)
  {
    var q, r := y / k, y % k;
    assert y == k * q + r;
    if r == 0 {
      DivUnique(y - 1, k, q - 1, k - 1);
    } else {
      DivUnique(y - 1, k, q, r - 1);
    }
  }

  /** A year adds one weekday, a leap year two. */
  lemma YearTermStep(y: int)
    ensures YearTerm(y) - YearTerm(y - 1) == (if IsLeapYear(y) then 2 else 1)
  {
    DivStep(y, 4);
    DivStep(y, 100);
    DivStep(y, 400);
    if y % 400 == 0 {
      assert y % 100 == 0 && y % 4 == 0 by {
        var q := y / 400;
        assert y == 400 * q;
        assert y == 100 * (4 * q);
        assert y == 4 * (100 * q);
      }
    }
    if y % 100 == 0 {
      assert y % 4 == 0 by {
        var q := y / 100;
        assert y == 100 * q;
        assert y == 4 * (25 * q);
      }
    }
  }

  /** Moving on by one day, or by one day less four or five whole weeks, advances the weekday by one. */
  lemma ModStep(a: int, b: int)
    requires b - a == 1 || b - a == -27 || b - a == -34
    ensures b % 7 == (a % 7 + 1) % 7
  {
    var w := b - a - 1;
    assert w == 0 || w == -28 || w == -35;
    DivUnique(a, 7, a / 7, a % 7);
    if a % 7 == 6 {
      DivUnique(b, 7, a / 7 + 1 + w / 7, 0);
    } else {
      DivUnique(b, 7, a / 7 + w / 7, a % 7 + 1);
    }
  }

  /** Within a month, and across month ends other than February's, the day count moves by 1, -27 or -34. */
  lemma DayNumberStepSameYearTerm(d: Date)
    requires ValidDate(d)
    requires d.day < DaysInMonth(d.year, d.month) || d.month != 1
    ensures var k := DayNumber(NextDay(d)) - DayNumber(d); k == 1 || k == -27 || k == -34
  {
    var n := NextDay(d);
    var y := if d.month < 2 then d.year - 1 else d.year;
    var yn := if n.month < 2 then n.year - 1 else n.year;
    assert yn == y;
  }

  /** From the last day of February to March 1st the year term moves on by one year. */
  lemma DayNumberStepFebruary(d: Date)
    requires ValidDate(d)
    requires d.month == 1 && d.day == DaysInMonth(d.year, 1)
    ensures DayNumber(NextDay(d)) - DayNumber(d) == -27
  {
    YearTermStep(d.year);
    assert NextDay(d) == Date(d.year, 2, 1);
    assert DayNumber(NextDay(d)) == YearTerm(d.year) + 2 + 1;
    assert DayNumber(d) == YearTerm(d.year - 1) + 3 + DaysInMonth(d.year, 1);
  }

  /** The day after a day is the next weekday. */
  lemma NextDayOfWeek(d: Date)
    requires ValidDate(d)
    ensures DayOfWeek(NextDay(d)) == (DayOfWeek(d) + 1) % 7
  {
    if d.day < DaysInMonth(d.year, d.month) || d.month != 1 {
      DayNumberStepSameYearTerm(d);
    } else {
      DayNumberStepFebruary(d);
    }
    ModStep(DayNumber(d), DayNumber(NextDay(d)));
  }

  /** 1 January 1970, the JavaScript epoch, was a Thursday. */
  lemma EpochIsThursday()
    ensures DayOfWeek(Date(1970, 0, 1)) == 4
  {
  }

  // ---------------------------------------------------------------------
  // formatDate / isSameDay
  // ---------------------------------------------------------------------

  /** `s.padStart(2, '0')`. */
  function PadStart2(s: string): (r: string)
    ensures |r| == if |s| >= 2 then |s| else 2
    ensures |s| >= 2 ==> r == s
    ensures |s| < 2 ==> r[2 - |s|..] == s
  {
    if |s| >= 2 then s else seq(2 - |s|, _ => '0') + s
  }

  /** Two digits of a number below 100, as `String(n).padStart(2, '0')` writes it. */
  lemma TwoDigits(n: nat)
    requires n < 100
    ensures PadStart2(NatToString(n)) == [Digit(n / 10), Digit(n % 10)]
  {
    if n >= 10 {
      assert NatToString(n) == NatToString(n / 10) + [Digit(n % 10)];
    }
  }

  /** `formatDate`: local `YYYY-MM-DD` with the month and day zero-padded to two digits. */
  function FormatDate(d: Date): (s: string)
    requires ValidDate(d)
    ensures |s| == |IntToString(d.year)| + 6
  {
    IntToString(d.year) + MonthDayTail(d)
  }

  /** The part of a formatted date after the year: `-MM-DD`, always six characters. */
  function MonthDayTail(d: Date): (t: string)
    requires ValidDate(d)
    ensures t == "-" + Field2(d.month + 1) + "-" + Field2(d.day)
  {
    TwoDigits(d.month + 1);
    TwoDigits(d.day);
    "-" + PadStart2(NatToString(d.month + 1)) + "-" + PadStart2(NatToString(d.day))
  }

  /** The two-digit field of month or day. */
  function Field2(n: nat): (s: string)
    requires n < 100
    ensures |s| == 2 && AllDigits(s)
    ensures DigitsValue(s) == n
  {
    var s := [Digit(n / 10), Digit(n % 10)];
    assert s[..1] == [Digit(n / 10)];
    assert s[..1][..0] == [];
    assert DigitsValue(s[..1]) == n / 10 by {
      assert DigitValue(Digit(n / 10)) == n / 10;
    }
    assert DigitValue(s[1]) == n % 10;
    assert DigitsValue(s) == 10 * (n / 10) + n % 10;
    s
  }

  /** The four-digit year field of a year in 1000..9999. */
  function Field4(y: int): (s: string)
    requires 1000 <= y <= 9999
    ensures |s| == 4 && AllDigits(s)
    ensures DigitsValue(s) == y
  {
    var s := NatToString(y);
    NatToStringValue(y);
    s
  }

  /** The layout of a formatted date: year, '-', two-digit month, '-', two-digit day. */
  lemma FormatDateFields(d: Date)
    requires ValidDate(d)
    requires d.year >= 0
    ensures FormatDate(d) == NatToString(d.year) + ("-" + Field2(d.month + 1) + "-" + Field2(d.day))
  {
  }

  /**
    For years 1000..9999 `formatDate` yields ten characters `YYYY-MM-DD`:
    digits everywhere except the two dashes, month 1..12 and day as numbers.
   */
  lemma FormatDateShape(d: Date)
    requires ValidDate(d)
    requires 1000 <= d.year <= 9999
    ensures var s := FormatDate(d);
      && |s| == 10 && s[4] == '-' && s[7] == '-'
      && AllDigits(s[..4]) && AllDigits(s[5..7]) && AllDigits(s[8..])
      && DigitsValue(s[..4]) == d.year
      && DigitsValue(s[5..7]) == d.month + 1
      && DigitsValue(s[8..]) == d.day
  {
    FormatDateFields(d);
    var s := FormatDate(d);
    var y4, m2, d2 := Field4(d.year), Field2(d.month + 1), Field2(d.day);
    assert s == y4 + ("-" + m2 + "-" + d2);
    assert s[..4] == y4;
    assert s[5..7] == m2;
    assert s[8..] == d2;
  }

  /** `isSameDay`: the two dates format to the same string. */
  predicate IsSameDay(a: Date, b: Date): (r: bool)
    requires ValidDate(a) && ValidDate(b)
    ensures r <==> a == b
  {
    assert FormatDate(a) == FormatDate(b) ==> a == b by {
      if FormatDate(a) == FormatDate(b) {
        FormatDateInjective(a, b);
      }
    }
    FormatDate(a) == FormatDate(b)
  }

  lemma IntToStringInjective(a: int, b: int)
    requires IntToString(a) == IntToString(b)
    ensures a == b
  {
    if a >= 0 && b >= 0 {
      NatToStringInjective(a, b);
    } else if a < 0 && b < 0 {
      assert NatToString(-a) == IntToString(a)[1..];
      assert NatToString(-b) == IntToString(b)[1..];
      NatToStringInjective(-a, -b);
    }
  }

  lemma MonthDayTailInjective(a: Date, b: Date)
    requires ValidDate(a) && ValidDate(b)
    requires MonthDayTail(a) == MonthDayTail(b)
    ensures a.month == b.month && a.day == b.day
  {
    var ta, tb := MonthDayTail(a), MonthDayTail(b);
    assert Field2(a.month + 1) == ta[1..3] == Field2(b.month + 1);
    assert Field2(a.day) == ta[4..] == Field2(b.day);
  }

  /** A concatenation with a fixed-length second part splits back uniquely. */
  lemma SplitAppend(x1: string, t1: string, x2: string, t2: string)
    requires |t1| == |t2|
    requires x1 + t1 == x2 + t2
    ensures x1 == x2 && t1 == t2
  {
    var s := x1 + t1;
    assert x1 == s[..|x1|];
    assert x2 == s[..|x2|];
    assert t1 == s[|x1|..];
    assert t2 == s[|x2|..];
  }

  /** `formatDate` loses nothing: every year, month and day is recoverable. */
  lemma FormatDateInjective(a: Date, b: Date)
    requires ValidDate(a) && ValidDate(b)
    requires FormatDate(a) == FormatDate(b)
    ensures a == b
  {
    SplitAppend(IntToString(a.year), MonthDayTail(a), IntToString(b.year), MonthDayTail(b));
    IntToStringInjective(a.year, b.year);
    MonthDayTailInjective(a, b);
  }

  /** `isSameDay` is exactly equality of dates, hence reflexive and symmetric. */
  lemma IsSameDayIffEqual(a: Date, b: Date)
    requires ValidDate(a) && ValidDate(b)
    ensures IsSameDay(a, b) <==> a == b
    ensures IsSameDay(a, b) <==> IsSameDay(b, a)
  {
    if IsSameDay(a, b) {
      FormatDateInjective(a, b);
    }
  }

  /**
    For years 1000..9999 string order of formatted dates is chronological
    order, which is what lets the analytics view sort by the date string.
   */
  lemma FormatDateOrder(a: Date, b: Date)
    requires ValidDate(a) && ValidDate(b)
    requires 1000 <= a.year <= 9999 && 1000 <= b.year <= 9999
    ensures LexLess(FormatDate(a), FormatDate(b)) <==> Before(a, b)
  {
    FormatDateFields(a);
    FormatDateFields(b);
    var ya, ma, da := Field4(a.year), Field2(a.month + 1), Field2(a.day);
    var yb, mb, db := Field4(b.year), Field2(b.month + 1), Field2(b.day);
    assert FormatDate(a) == ya + ("-" + ma + "-" + da);
    assert FormatDate(b) == yb + ("-" + mb + "-" + db);
    LexLessConcat(ya, "-" + ma + "-" + da, yb, "-" + mb + "-" + db);
    LexLessDigits(ya, yb);
    assert "-" + ma + "-" + da == "-" + (ma + ("-" + da));
    assert "-" + mb + "-" + db == "-" + (mb + ("-" + db));
    LexLessConcat("-", ma + ("-" + da), "-", mb + ("-" + db));
    LexLessIrreflexive("-");
    LexLessConcat(ma, "-" + da, mb, "-" + db);
    LexLessDigits(ma, mb);
    LexLessConcat("-", da, "-", db);
    LexLessDigits(da, db);
  }

  // ---------------------------------------------------------------------
  // Parsing `new Date("YYYY-MM-DD")` back into fields
  // ---------------------------------------------------------------------

  /**
    The (year, month, day) that `new Date(s)` reports for a date-only ISO
    string: ten characters `YYYY-MM-DD`, month 01..12, day within the month.
    Anything else is an Invalid Date, whose fields match no month.
   */
  function ParseDate(s: string): (r: Option<Date>)
    ensures r.Some? ==> ValidDate(r.value) && r.value.year >= 0
  {
    if |s| == 10 && s[4] == '-' && s[7] == '-'
       && AllDigits(s[..4]) && AllDigits(s[5..7]) && AllDigits(s[8..])
    then
      var y, m, d := DigitsValue(s[..4]), DigitsValue(s[5..7]), DigitsValue(s[8..]);
      if 1 <= m <= 12 && 1 <= d <= DaysInMonth(y, m - 1) then Some(Date(y, m - 1, d)) else None
    else None
  }

  /** Reading a formatted date back gives the date (years 1000..9999). */
  lemma ParseFormatRoundTrip(d: Date)
    requires ValidDate(d)
    requires 1000 <= d.year <= 9999
    ensures ParseDate(FormatDate(d)) == Some(d)
  {
    FormatDateShape(d);
  }

  // ---------------------------------------------------------------------
  // getMonthDays / getMonthName
  // ---------------------------------------------------------------------

  /**
    `getMonthDays(year, month)`: the trailing days of the previous month
    that fill the first week back to Sunday, then every day of the month.
    The padding day at index i is `new Date(year, month, i - f + 1)`, a
    non-positive day number, which JavaScript normalises into the previous
    month.
   */
  function GetMonthDays(ym: YearMonth): (days: seq<Date>)
    requires ym.Valid()
    ensures var f := DayOfWeek(Date(ym.year, ym.month, 1));
      && |days| == f + DaysInMonth(ym.year, ym.month)
      && (forall i :: 0 <= i < |days| ==> ValidDate(days[i]))
      && (forall i :: 0 <= i < f ==> YearMonth(days[i].year, days[i].month) == ym.Prev())
      && (forall i :: f <= i < |days| ==> days[i] == Date(ym.year, ym.month, i - f + 1))
  {
    var f := DayOfWeek(Date(ym.year, ym.month, 1));
    var p := ym.Prev();
    var pl := DaysInMonth(p.year, p.month);
    seq(f, i requires 0 <= i < f => Date(p.year, p.month, pl - f + 1 + i))
    + seq(DaysInMonth(ym.year, ym.month), i => Date(ym.year, ym.month, i + 1))
  }

  /** Consecutive cells of the grid are consecutive calendar days. */
  lemma MonthDaysConsecutive(ym: YearMonth, i: int)
    requires ym.Valid()
    requires 0 <= i < |GetMonthDays(ym)| - 1
    ensures NextDay(GetMonthDays(ym)[i]) == GetMonthDays(ym)[i + 1]
  {
  }

  /** The padding ends on the day before the 1st, so the grid has no gap. */
  lemma MonthDaysPaddingEndsBeforeFirst(ym: YearMonth)
    requires ym.Valid()
    requires DayOfWeek(Date(ym.year, ym.month, 1)) > 0
    ensures var f := DayOfWeek(Date(ym.year, ym.month, 1));
      NextDay(GetMonthDays(ym)[f - 1]) == Date(ym.year, ym.month, 1)
  {
  }

  /** The weekday advances by one from each cell to the next. */
  lemma WeekdayOfNextCell(ym: YearMonth, i: int)
    requires ym.Valid()
    requires 0 <= i < |GetMonthDays(ym)| - 1
    ensures DayOfWeek(GetMonthDays(ym)[i + 1]) == (DayOfWeek(GetMonthDays(ym)[i]) + 1) % 7
  {
    MonthDaysConsecutive(ym, i);
    NextDayOfWeek(GetMonthDays(ym)[i]);
  }

  /** Sunday alignment for the cells of the month itself. */
  lemma {:induction false} MonthDaysWeekdaysFrom(ym: YearMonth, i: int)
    requires ym.Valid()
    requires DayOfWeek(Date(ym.year, ym.month, 1)) <= i < |GetMonthDays(ym)|
    ensures DayOfWeek(GetMonthDays(ym)[i]) == i % 7
    decreases i
  {
    var first := Date(ym.year, ym.month, 1);
    var f := DayOfWeek(first);
    if i == f {
      assert GetMonthDays(ym)[i] == first;
      assert i % 7 == i;
    } else {
      MonthDaysWeekdaysFrom(ym, i - 1);
      WeekdayOfNextCell(ym, i - 1);
      ModStep(i - 1, i);
    }
  }

  /** Sunday alignment for the padding cells, counted back from the 1st. */
  lemma {:induction false} MonthDaysWeekdaysPadding(ym: YearMonth, f: int, i: int)
    requires ym.Valid()
    requires f == DayOfWeek(Date(ym.year, ym.month, 1))
    requires 0 <= i <= f
    ensures DayOfWeek(GetMonthDays(ym)[i]) == i
    decreases f - i
  {
    if i == f {
      MonthDaysWeekdaysFrom(ym, f);
      assert f % 7 == f;
    } else {
      MonthDaysWeekdaysPadding(ym, f, i + 1);
      var days := GetMonthDays(ym);
      var w := DayOfWeek(days[i]);
      WeekdayOfNextCell(ym, i);
      assert (w + 1) % 7 == i + 1;
      assert w < 6 ==> (w + 1) % 7 == w + 1;
    }
  }

  /** Sunday alignment: the cell at index i falls on weekday i mod 7. */
  lemma MonthDaysWeekdays(ym: YearMonth, i: int)
    requires ym.Valid()
    requires 0 <= i < |GetMonthDays(ym)|
    ensures DayOfWeek(GetMonthDays(ym)[i]) == i % 7
  {
    var f := DayOfWeek(Date(ym.year, ym.month, 1));
    if i >= f {
      MonthDaysWeekdaysFrom(ym, i);
    } else {
      MonthDaysWeekdaysPadding(ym, f, i);
      assert i % 7 == i;
    }
  }

  /** `getMonthName`: English month names; an index outside 0..11 gives undefined. */
  function GetMonthName(m: int): (r: Option<string>)
    ensures r.Some? <==> 0 <= m < 12
    ensures m == 0 ==> r == Some("January")
    ensures m == 11 ==> r == Some("December")
    ensures r.Some? ==> |r.value| >= 3
  {
    var names := ["January", "February", "March", "April", "May", "June",
                  "July", "August", "September", "October", "November", "December"];
    if 0 <= m < 12 then Some(names[m]) else None
  }

  /** Distinct months have distinct names. */
  lemma MonthNamesDistinct(a: int, b: int)
    requires 0 <= a < 12 && 0 <= b < 12
    requires GetMonthName(a) == GetMonthName(b)
    ensures a == b
  {
  }
}

=== FILE: day_modal.dfy ===
/**
  The completion logic of src/components/DayModal.tsx: the checkbox map a
  dialog opens with, the toggle that persists it, the "perfect day" check
  and the progress the dialog displays.
 */
module DayModal {
  import opened Common
  import opened DateUtils
  import opened Storage

  /** `completed[habit.id] || false`: the checkbox of a habit is ticked. */
  predicate Checked(m: map<string, bool>, id: string) {
    id in m && m[id]
  }

  /** What the dialog holds: the current habits and the checkbox map for its date. */
  datatype Dialog = Dialog(date: Date, habits: seq<Habit>, completed: map<string, bool>)

  /**
    Opening the dialog: a stored record's map is used as it is (ids of
    deleted habits included); without a record every current habit starts
    unticked.
   */
  function Open(s: Store, date: Date): (d: Dialog)
    requires ValidDate(date)
    ensures d.date == date && d.habits == GetHabits(s)
    ensures GetProgressForDate(s, FormatDate(date)).Some? ==>
      d.completed == GetProgressForDate(s, FormatDate(date)).value.habits
    ensures GetProgressForDate(s, FormatDate(date)).None? ==>
      d.completed.Keys == HabitIds(GetHabits(s)) && forall id :: id in d.completed ==> !d.completed[id]
  {
    var habits := GetHabits(s);
    match GetProgressForDate(s, FormatDate(date))
    case Some(rec) => Dialog(date, habits, rec.habits)
    case None => Dialog(date, habits, map id | id in HabitIds(habits) :: false)
  }

  /**
    `handleToggle`: set exactly one checkbox and persist the whole map for
    the dialog's date.
   */
  function Toggle(d: Dialog, s: Store, habitId: string, checked: bool): (r: (Dialog, Store))
    requires ValidDate(d.date)
    ensures var (d', s') := r;
      && d'.date == d.date && d'.habits == d.habits
      && d'.completed.Keys == d.completed.Keys + {habitId}
      && d'.completed[habitId] == checked
      && (forall id :: id in d.completed && id != habitId ==> d'.completed[id] == d.completed[id])
      && s'.habitsEntry == s.habitsEntry
      && GetProgressForDate(s', FormatDate(d.date)) == Some(MakeRecord(FormatDate(d.date), d'.completed))
  {
    var completed := d.completed[habitId := checked];
    (d.(completed := completed), SaveProgressForDate(s, FormatDate(d.date), completed))
  }

  /** Toggling the same box twice to the same value is the same as once. */
  lemma ToggleIdempotent(d: Dialog, s: Store, habitId: string, checked: bool)
    requires ValidDate(d.date)
    ensures var (d1, s1) := Toggle(d, s, habitId, checked);
      Toggle(d1, s1, habitId, checked) == (d1, s1)
  {
    var (d1, s1) := Toggle(d, s, habitId, checked);
    assert d1.completed[habitId := checked] == d1.completed;
    SaveIdempotent(s, FormatDate(d.date), d1.completed);
  }

  /**
    The 100% check as written: the number of true values in the whole map
    equals the number of current habits, and there is at least one habit.
   */
  predicate CelebratesAsWritten(habits: seq<Habit>, completed: map<string, bool>): (r: bool)
    ensures r ==> DisplayedProgressAsWritten(habits, completed) == 100
  {
    if CountTrue(completed) == |habits| && |habits| > 0 then
      RoundDivFull(|habits|);
      true
    else
      false
  }

  /** The displayed percentage as written: true values in the map over the current habit count. */
  function DisplayedProgressAsWritten(habits: seq<Habit>, completed: map<string, bool>): (p: int)
    ensures |habits| == 0 ==> p == 0
    ensures |habits| > 0 ==> 2 * |habits| * p <= 200 * CountTrue(completed) + |habits| < 2 * |habits| * (p + 1)
  {
    if |habits| > 0 then RoundDiv(100 * CountTrue(completed), |habits|) else 0
  }

  /**
    A day recorded with habits A and B, after B was deleted: the dialog
    shows 200%, and with A unticked it still celebrates.
   */
  lemma OrphanIdsInflateProgress()
    ensures var habits := [Habit("A", "Read", "#10b981", "x")];
      && DisplayedProgressAsWritten(habits, map["A" := true, "B" := true]) == 200
      && CelebratesAsWritten(habits, map["A" := false, "B" := true])
      && !IsPerfectDay(habits, map["A" := false, "B" := true])
  {
    var both := map["A" := true, "B" := true];
    assert CompletedIds(both) == {"A", "B"};
    var onlyB := map["A" := false, "B" := true];
    assert CompletedIds(onlyB) == {"B"};
    var habits := [Habit("A", "Read", "#10b981", "x")];
    assert !Checked(onlyB, habits[0].id);
  }

  /** The current habits that are ticked (`completed` restricted to the habit list). */
  function CurrentDone(habits: seq<Habit>, completed: map<string, bool>): (ids: set<string>)
    ensures ids <= HabitIds(habits)
    ensures forall id :: id in ids <==> id in HabitIds(habits) && Checked(completed, id)
  {
    set id | id in HabitIds(habits) && Checked(completed, id)
  }

  /** The intended 100% check: at least one habit, and every current habit ticked. */
  predicate IsPerfectDay(habits: seq<Habit>, completed: map<string, bool>): (r: bool)
    ensures r <==> |habits| > 0 && CurrentDone(habits, completed) == HabitIds(habits)
  {
    |habits| > 0 && forall i :: 0 <= i < |habits| ==> Checked(completed, habits[i].id)
  }

  /** The intended displayed percentage: ticked current habits over the habit count, never above 100. */
  function DisplayedProgress(habits: seq<Habit>, completed: map<string, bool>): (p: int)
    ensures 0 <= p <= 100
    ensures |habits| == 0 ==> p == 0
    ensures |habits| > 0 ==>
      2 * |habits| * p <= 200 * |CurrentDone(habits, completed)| + |habits| < 2 * |habits| * (p + 1)
  {
    HabitIdsCard(habits);
    SubsetCard(CurrentDone(habits, completed), HabitIds(habits));
    Percent(|CurrentDone(habits, completed)|, |habits|)
  }

  /** With unique ids, a perfect day is one where every current habit counts as done. */
  lemma PerfectDayIffAllCounted(habits: seq<Habit>, completed: map<string, bool>)
    requires UniqueIds(habits)
    ensures IsPerfectDay(habits, completed) <==> |habits| > 0 && |CurrentDone(habits, completed)| == |habits|
  {
    HabitIdsCard(habits);
    var done, ids := CurrentDone(habits, completed), HabitIds(habits);
    SubsetCard(done, ids);
    if IsPerfectDay(habits, completed) {
      assert done == ids;
    }
    if |habits| > 0 && |done| == |habits| {
      assert done == ids;
      forall i | 0 <= i < |habits| ensures Checked(completed, habits[i].id) {
        assert habits[i].id in done;
      }
    }
  }

  /**
    When the map holds no ids of deleted habits and ids are unique, the
    check as written and the intended one agree, and so do the two
    displayed percentages.
   */
  lemma AsWrittenAgreesWithoutOrphans(habits: seq<Habit>, completed: map<string, bool>)
    requires UniqueIds(habits)
    requires completed.Keys <= HabitIds(habits)
    ensures CelebratesAsWritten(habits, completed) <==> IsPerfectDay(habits, completed)
    ensures DisplayedProgressAsWritten(habits, completed) == DisplayedProgress(habits, completed)
  {
    assert CompletedIds(completed) == CurrentDone(habits, completed);
    PerfectDayIffAllCounted(habits, completed);
  }
}

=== FILE: habit_setup.dfy ===
/**
  The first-run screen of src/components/HabitSetup.tsx: a list of draft
  habits (no ids yet) that is edited in place and turned into the stored
  habit list by "Start Tracking".
 */
module HabitSetup {
  import opened Common
  import opened Storage
  import opened Palette

  /** A habit without its id. */
  datatype Draft = Draft(name: string, color: string, icon: string)

  /** The field an edit targets (`keyof Omit<Habit, 'id'>`). */
  datatype Field = Name | Color | Icon

  /** The screen opens with one empty draft in the first colour and icon. */
  function Initial(): (ds: seq<Draft>)
    ensures |ds| == 1 && ds[0].name == "" && ds[0].color == ColorOptions[0] && ds[0].icon == IconOptions[0]
  {
    [Draft("", ColorOptions[0], IconOptions[0])]
  }

  /** `addHabit`: append an empty draft whose colour and icon cycle with the list's length. */
  function AddDraft(ds: seq<Draft>): (r: seq<Draft>)
    ensures |r| == |ds| + 1 && r[..|ds|] == ds
    ensures r[|ds|] == Draft("", ColorFor(|ds|), IconFor(|ds|))
  {
    ds + [Draft("", ColorFor(|ds|), IconFor(|ds|))]
  }

  /** `updateHabit`: set one field of one draft; every other field and draft stays. */
  function UpdateDraft(ds: seq<Draft>, index: nat, field: Field, value: string): (r: seq<Draft>)
    requires index < |ds|
    ensures |r| == |ds|
    ensures forall i :: 0 <= i < |ds| && i != index ==> r[i] == ds[i]
    ensures r[index].name == (if field == Name then value else ds[index].name)
    ensures r[index].color == (if field == Color then value else ds[index].color)
    ensures r[index].icon == (if field == Icon then value else ds[index].icon)
  {
    var d := ds[index];
    ds[index := match field
      case Name => d.(name := value)
      case Color => d.(color := value)
      case Icon => d.(icon := value)]
  }

  /** Setting a field to the value it already has changes nothing. */
  lemma UpdateSameValueIsNoOp(ds: seq<Draft>, index: nat, field: Field)
    requires index < |ds|
    ensures var d := ds[index];
      UpdateDraft(ds, index, field, match field case Name => d.name case Color => d.color case Icon => d.icon) == ds
  {
    var r := UpdateDraft(ds, index, field, match field
      case Name => ds[index].name case Color => ds[index].color case Icon => ds[index].icon);
    assert r[index] == ds[index];
  }

  /** `habits.filter((_, i) => i !== index)` for any index: positions other than `index` survive, in order. */
  function RemoveDraft(ds: seq<Draft>, index: int): (r: seq<Draft>)
    ensures 0 <= index < |ds| ==> r == ds[..index] + ds[index + 1..]
    ensures !(0 <= index < |ds|) ==> r == ds
    decreases |ds|
  {
    if |ds| == 0 then []
    else if index == 0 then RemoveDraft(ds[1..], index - 1)
    else [ds[0]] + RemoveDraft(ds[1..], index - 1)
  }

  /** The remove button is rendered only while there is more than one draft. */
  predicate CanRemove(ds: seq<Draft>) {
    |ds| > 1
  }

  /** A button on the setup screen. */
  datatype Action = Add | Update(index: nat, field: Field, value: string) | Remove(index: nat)

  /** The action is offered by the rendered screen. */
  predicate Offered(ds: seq<Draft>, a: Action) {
    match a
    case Add => true
    case Update(index, _, _) => index < |ds|
    case Remove(index) => index < |ds| && CanRemove(ds)
  }

  function Apply(ds: seq<Draft>, a: Action): (r: seq<Draft>)
    requires Offered(ds, a)
    ensures a.Add? ==> |r| == |ds| + 1
    ensures a.Update? ==> |r| == |ds|
    ensures a.Remove? ==> |r| == |ds| - 1
  {
    match a
    case Add => AddDraft(ds)
    case Update(index, field, value) => UpdateDraft(ds, index, field, value)
    case Remove(index) => RemoveDraft(ds, index)
  }

  /** Press the actions in order; a button the screen does not render does nothing. */
  function Run(ds: seq<Draft>, actions: seq<Action>): (r: seq<Draft>)
    decreases |actions|
  {
    if |actions| == 0 then ds
    else if Offered(ds, actions[0]) then Run(Apply(ds, actions[0]), actions[1..])
    else Run(ds, actions[1..])
  }

  /** Whatever buttons are pressed, the screen never runs out of drafts. */
  lemma {:induction false} NeverEmpty(ds: seq<Draft>, actions: seq<Action>)
    requires |ds| >= 1
    ensures |Run(ds, actions)| >= 1
    decreases |actions|
  {
    if |actions| > 0 {
      if Offered(ds, actions[0]) {
        NeverEmpty(Apply(ds, actions[0]), actions[1..]);
      } else {
        NeverEmpty(ds, actions[1..]);
      }
    }
  }

  lemma SetupNeverEmpty(actions: seq<Action>)
    ensures |Run(Initial(), actions)| >= 1
  {
    NeverEmpty(Initial(), actions);
  }

  /** The drafts whose name does not trim to nothing, in order. */
  function ValidDrafts(ds: seq<Draft>): (r: seq<Draft>)
    ensures |r| <= |ds|
    ensures forall d :: d in r <==> d in ds && !IsBlank(d.name)
    ensures (forall i :: 0 <= i < |ds| ==> !IsBlank(ds[i].name)) ==> r == ds
  {
    if |ds| == 0 then []
    else
      var d, rest := ds[0], ds[1..];
      assert ds == [d] + rest;
      TrimEmptyIffBlank(d.name);
      if Trim(d.name) != "" then [d] + ValidDrafts(rest) else ValidDrafts(rest)
  }

  /** Filtering distributes over concatenation: named drafts keep their order and multiplicity. */
  lemma {:induction false} ValidDraftsAppend(a: seq<Draft>, b: seq<Draft>)
    ensures ValidDrafts(a + b) == ValidDrafts(a) + ValidDrafts(b)
    decreases |a|
  {
    if |a| == 0 {
      assert a + b == b;
    } else {
      assert (a + b)[0] == a[0] && (a + b)[1..] == a[1..] + b;
      ValidDraftsAppend(a[1..], b);
    }
  }

  /** A single draft is kept exactly when its name is not blank. */
  lemma ValidDraftsSingle(d: Draft)
    ensures ValidDrafts([d]) == if IsBlank(d.name) then [] else [d]
  {
    assert [d][1..] == [];
    TrimEmptyIffBlank(d.name);
  }

  /** The positions of the drafts with a non-blank name. */
  function NamedIndices(ds: seq<Draft>): set<int> {
    set i | 0 <= i < |ds| && !IsBlank(ds[i].name)
  }

  lemma NamedIndicesSnoc(ds: seq<Draft>)
    requires |ds| > 0
    ensures var k := |ds| - 1;
      && k !in NamedIndices(ds[..k])
      && NamedIndices(ds) == NamedIndices(ds[..k]) + (if IsBlank(ds[k].name) then {} else {k})
  {
    var k := |ds| - 1;
    var init := ds[..k];
    assert forall i :: 0 <= i < k ==> init[i] == ds[i];
  }

  /** As many drafts are kept as there are named positions. */
  lemma {:induction false} ValidDraftsCount(ds: seq<Draft>)
    ensures |ValidDrafts(ds)| == |NamedIndices(ds)|
    decreases |ds|
  {
    if |ds| > 0 {
      var k := |ds| - 1;
      var init, last := ds[..k], ds[k];
      var named := if IsBlank(last.name) then 0 else 1;
      assert init + [last] == ds;
      ValidDraftsAppend(init, [last]);
      ValidDraftsSingle(last);
      assert |ValidDrafts(ds)| == |ValidDrafts(init)| + named;
      ValidDraftsCount(init);
      NamedIndicesSnoc(ds);
      var before := NamedIndices(init);
      assert |NamedIndices(ds)| == |before| + named by {
        if named == 1 {
          assert NamedIndices(ds) == before + {k};
        } else {
          assert NamedIndices(ds) == before;
        }
      }
    }
  }

  /** The id of the i-th saved habit: `habit-<now>-<i>`. */
  function SetupId(now: nat, i: nat): (id: string)
    ensures |id| > 6 && id[..6] == "habit-"
  {
    "habit-" + NatToString(now) + "-" + NatToString(i)
  }

  lemma SetupIdInjective(now: nat, i: nat, j: nat)
    requires SetupId(now, i) == SetupId(now, j)
    ensures i == j
  {
    var p := "habit-" + NatToString(now) + "-";
    assert SetupId(now, i)[|p|..] == NatToString(i);
    assert SetupId(now, j)[|p|..] == NatToString(j);
    NatToStringInjective(i, j);
  }

  /** The drafts, numbered in order, as habits. */
  function WithIds(ds: seq<Draft>, now: nat): (hs: seq<Habit>)
    ensures |hs| == |ds|
    ensures forall i :: 0 <= i < |ds| ==>
      hs[i] == Habit(SetupId(now, i), ds[i].name, ds[i].color, ds[i].icon)
  {
    seq(|ds|, i requires 0 <= i < |ds| => Habit(SetupId(now, i), ds[i].name, ds[i].color, ds[i].icon))
  }

  /** Numbered ids never collide. */
  lemma WithIdsUnique(ds: seq<Draft>, now: nat)
    ensures UniqueIds(WithIds(ds, now))
  {
    var hs := WithIds(ds, now);
    forall i, j | 0 <= i < j < |hs| ensures hs[i].id != hs[j].id {
      if hs[i].id == hs[j].id {
        SetupIdInjective(now, i, j);
      }
    }
  }

  /** The "Start Tracking (n habits)" count. */
  function ReadyCount(ds: seq<Draft>): (n: nat)
    ensures n <= |ds|
    ensures n == |NamedIndices(ds)|
    ensures n == 0 <==> forall i :: 0 <= i < |ds| ==> IsBlank(ds[i].name)
  {
    var v := ValidDrafts(ds);
    ValidDraftsCount(ds);
    assert (exists i :: 0 <= i < |ds| && !IsBlank(ds[i].name)) ==> |v| > 0 by {
      if exists i :: 0 <= i < |ds| && !IsBlank(ds[i].name) {
        var i :| 0 <= i < |ds| && !IsBlank(ds[i].name);
        assert ds[i] in v;
      }
    }
    assert |v| > 0 ==> !IsBlank(v[0].name) && v[0] in ds;
    |v|
  }

  /**
    `handleComplete` at time `now`: with no named draft it refuses and
    saves nothing; otherwise the named drafts, numbered in order, become
    the stored habit list, setup is complete and the screen hands over.
   */
  function Complete(ds: seq<Draft>, s: Store, now: nat): (r: (Store, Toast, bool))
    ensures var (s', toast, done) := r;
      && (done <==> ReadyCount(ds) > 0)
      && (!done ==> s' == s && toast == Failure("Please add at least one habit"))
      && (done ==>
            && GetHabits(s') == WithIds(ValidDrafts(ds), now)
            && IsSetupComplete(s')
            && s'.progressEntry == s.progressEntry
            && toast == Success(NatToString(ReadyCount(ds)) + " habits saved! Let's start tracking."))
  {
    var valid := ValidDrafts(ds);
    if |valid| == 0 then (s, Failure("Please add at least one habit"), false)
    else
      var hs := WithIds(valid, now);
      (SaveHabits(s, hs), Success(NatToString(|hs|) + " habits saved! Let's start tracking."), true)
  }

  /** What setup stores: habits with unique ids, every name non-blank, every named draft kept. */
  lemma CompleteSavesNamedDrafts(ds: seq<Draft>, s: Store, now: nat)
    requires ReadyCount(ds) > 0
    ensures var hs := GetHabits(Complete(ds, s, now).0);
      && UniqueIds(hs)
      && |hs| == ReadyCount(ds)
      && (forall h :: h in hs ==> !IsBlank(h.name))
      && (forall d :: d in ds && !IsBlank(d.name) ==>
            exists h :: h in hs && Draft(h.name, h.color, h.icon) == d)
  {
    var v := ValidDrafts(ds);
    var hs := WithIds(v, now);
    WithIdsUnique(v, now);
    forall h | h in hs ensures !IsBlank(h.name) {
      var i :| 0 <= i < |hs| && hs[i] == h;
      assert v[i] in v;
    }
    forall d | d in ds && !IsBlank(d.name) ensures exists h :: h in hs && Draft(h.name, h.color, h.icon) == d {
      var i :| 0 <= i < |v| && v[i] == d;
      assert hs[i] in hs;
    }
  }
}

=== FILE: index_page.dfy ===
/**
  The page of src/pages/Index.tsx: a four-state view machine that shows
  setup until habits exist, then the calendar, from which analytics and
  settings are opened and left again.
 */
module IndexPage {
  import opened Storage

  /** `type View`: exactly one screen is shown at a time. */
  datatype View = Setup | Calendar | Analytics | Settings

  /** The callbacks the shown screen can invoke. */
  datatype Event = SetupComplete | OpenAnalytics | OpenSettings | Back

  /** `useState<View>('setup')`. */
  const InitialView := Setup

  /** The mount effect: the calendar when setup is already complete, setup otherwise. */
  function Mount(s: Store): (v: View)
    ensures v == Calendar <==> |GetHabits(s)| > 0
    ensures v == Setup <==> |GetHabits(s)| == 0
  {
    IsSetupCompleteIff(s);
    if IsSetupComplete(s) then Calendar else InitialView
  }

  /**
    The transition on an event. A screen only renders its own callbacks, so
    an event the shown screen does not offer leaves the view as it is.
   */
  function Step(v: View, e: Event): (r: View)
    ensures v == Setup && e == SetupComplete ==> r == Calendar
    ensures v == Calendar && e == OpenAnalytics ==> r == Analytics
    ensures v == Calendar && e == OpenSettings ==> r == Settings
    ensures (v == Analytics || v == Settings) && e == Back ==> r == Calendar
    ensures !Offers(v, e) ==> r == v
  {
    match (v, e)
    case (Setup, SetupComplete) => Calendar
    case (Calendar, OpenAnalytics) => Analytics
    case (Calendar, OpenSettings) => Settings
    case (Analytics, Back) => Calendar
    case (Settings, Back) => Calendar
    case _ => v
  }

  /** The events each screen wires up. */
  predicate Offers(v: View, e: Event) {
    match v
    case Setup => e == SetupComplete
    case Calendar => e == OpenAnalytics || e == OpenSettings
    case Analytics => e == Back
    case Settings => e == Back
  }

  /** Every event that changes the view moves along one edge of the navigation graph. */
  lemma StepEdges(v: View, e: Event)
    ensures Step(v, e) != v ==> Offers(v, e)
    ensures Step(v, e) == Setup ==> v == Setup
    ensures v == Analytics || v == Settings ==> Step(v, e) in {v, Calendar}
  {
  }

  /** The views after a run of events. */
  function Run(v: View, events: seq<Event>): (r: View)
    decreases |events|
  {
    if |events| == 0 then v else Run(Step(v, events[0]), events[1..])
  }

  /** Once the setup screen is left, it never comes back. */
  lemma {:induction false} SetupNeverReturns(v: View, events: seq<Event>)
    requires v != Setup
    ensures Run(v, events) != Setup
    decreases |events|
  {
    if |events| > 0 {
      StepEdges(v, events[0]);
      SetupNeverReturns(Step(v, events[0]), events[1..]);
    }
  }

  /** Analytics and settings are never adjacent: going between them passes through the calendar. */
  lemma {:induction false} AnalyticsToSettingsViaCalendar(events: seq<Event>)
    requires |events| > 0
    requires Run(Analytics, events) == Settings
    ensures exists k :: 0 < k < |events| && Run(Analytics, events[..k]) == Calendar
  {
    var n := |events| - 1;
    var prev := Run(Analytics, events[..n]);
    RunSnoc(Analytics, events[..n], events[n]);
    assert events[..n] + [events[n]] == events;
    assert prev == Calendar || prev == Settings by {
      if prev == Analytics || prev == Setup {
        StepEdges(prev, events[n]);
      }
    }
    if prev == Calendar {
    } else {
      AnalyticsToSettingsViaCalendar(events[..n]);
      var k :| 0 < k < n && Run(Analytics, events[..n][..k]) == Calendar;
      assert events[..n][..k] == events[..k];
    }
  }

  lemma {:induction false} RunSnoc(v: View, events: seq<Event>, e: Event)
    ensures Run(v, events + [e]) == Step(Run(v, events), e)
    decreases |events|
  {
    if |events| == 0 {
      assert [e][1..] == [];
    } else {
      assert (events + [e])[1..] == events[1..] + [e];
      RunSnoc(Step(v, events[0]), events[1..], e);
    }
  }
}

=== FILE: notifications.dfy ===
/**
  The reminder and notification logic of src/lib/notifications.ts: the
  stored settings with their defaults, the single daily-reminder timer
  slot, the minute match that fires the reminder, and the permission
  gating of every notification.

  The browser is a value: whether the Notification API exists, the current
  permission, the intervals it is running. The clock is the hour and minute
  passed in.
 */
module Notifications {
  import opened Common

  datatype Settings = Settings(
    enabled: bool,
    dailyReminder: bool,
    reminderTime: string,
    completionNotification: bool)

  /** What `getSettings` returns when nothing is stored. */
  const DefaultSettings := Settings(false, true, "20:00", true)

  datatype Permission = Default | Granted | Denied

  datatype Notice = Notice(title: string, body: string, tag: string, icon: string, badge: string)

  /**
    A number produced by `Number(...)` or a missing array element, as far as
    comparing it with an integer clock reading goes: either an integer, or
    something (NaN, `undefined`, a fraction) no reading equals.
   */
  datatype Num = Int(value: int) | NoMatch

  /** What an interval re-runs every minute: the parsed reminder hour and minute. */
  datatype Target = Target(hours: Num, minutes: Num)

  /**
    The state the module works on: the stored settings, the interval id kept
    in session storage, the intervals the browser is running, and the id the
    browser hands out next (interval ids are positive).
   */
  datatype State = State(
    supported: bool,
    permission: Permission,
    settingsEntry: Option<Settings>,
    held: Option<nat>,
    intervals: map<nat, Target>,
    nextId: nat)

  /** At most one interval runs, and it is the one whose id is held. */
  predicate SingleTimer(st: State) {
    st.intervals.Keys <= (if st.held.Some? then {st.held.value} else {})
  }

  // ---------------------------------------------------------------------
  // Permission and sending
  // ---------------------------------------------------------------------

  /** `isPermissionGranted`. */
  predicate IsPermissionGranted(st: State): (r: bool)
    ensures !st.supported ==> !r
    ensures st.permission != Granted ==> !r
    ensures st.supported && st.permission == Granted ==> r
  {
    st.supported && st.permission == Granted
  }

  /** `send`: the notices shown; nothing without support and permission. */
  function Send(st: State, title: string, body: string, tag: string): (shown: seq<Notice>)
    ensures |shown| <= 1
    ensures |shown| == 1 <==> IsPermissionGranted(st)
    ensures |shown| == 1 ==> shown[0].title == title && shown[0].tag == tag && shown[0].icon == "/favicon.ico"
  {
    if !IsPermissionGranted(st) then []
    else [Notice(title, body, tag, "/favicon.ico", "/favicon.ico")]
  }

  /**
    `requestPermission`, with the user's answer to the browser prompt as a
    parameter: the answer is only asked for while the permission is neither
    granted nor denied.
   */
  function RequestPermission(st: State, answer: Permission): (r: (State, bool))
    ensures var (st', granted) := r;
      && (granted <==> IsPermissionGranted(st'))
      && (!st.supported ==> st' == st && !granted)
      && (st.permission != Default ==> st' == st)
      && (st.supported && st.permission == Default ==> st'.permission == answer)
      && st'.settingsEntry == st.settingsEntry && st'.held == st.held && st'.intervals == st.intervals
  {
    if !st.supported then (st, false)
    else if st.permission == Granted then (st, true)
    else if st.permission != Denied then (st.(permission := answer), answer == Granted)
    else (st, false)
  }

  // ---------------------------------------------------------------------
  // Settings
  // ---------------------------------------------------------------------

  /** `getSettings`: the stored record, or the defaults. */
  function GetSettings(st: State): (s: Settings)
    ensures st.settingsEntry.None? ==> s == DefaultSettings
    ensures st.settingsEntry.Some? ==> s == st.settingsEntry.value
  {
    match st.settingsEntry
    case None => DefaultSettings
    case Some(s) => s
  }

  // ---------------------------------------------------------------------
  // Parsing "HH:MM"
  // ---------------------------------------------------------------------

  /** `s.split(':')`: the pieces between colons, always at least one. */
  function SplitColon(s: string): (parts: seq<string>)
    ensures |parts| >= 1
    ensures ':' !in s ==> parts == [s]
    decreases |s|
  {
    if |s| == 0 then [""]
    else
      var rest := SplitColon(s[1..]);
      assert [s[0]] + s[1..] == s;
      assert ':' !in s ==> ':' !in s[1..];
      if s[0] == ':' then [""] + rest
      else [[s[0]] + rest[0]] + rest[1..]
  }

  /**
    `Number(piece)` for the inputs a time field produces: white space
    around the text is ignored, empty text is 0, decimal digits give their
    value; anything else is treated as never matching.
   */
  function ToNum(piece: string): (n: Num)
    ensures AllDigits(piece) && |piece| > 0 ==> n == Int(DigitsValue(piece))
    ensures IsBlank(piece) ==> n == Int(0)
  {
    var t := Trim(piece);
    TrimEmptyIffBlank(piece);
    TrimOfDigits(piece);
    if t == "" then Int(0)
    else if AllDigits(t) then Int(DigitsValue(t))
    else NoMatch
  }

  lemma TrimOfDigits(s: string)
    ensures AllDigits(s) ==> Trim(s) == s
  {
    if |s| > 0 && AllDigits(s) {
      assert IsDigit(s[0]) && IsDigit(s[|s| - 1]);
    }
  }

  /** `const [hours, minutes] = time.split(':').map(Number)`. */
  function ParseTime(time: string): (t: Target)
    ensures ':' !in time ==> t == Target(ToNum(time), NoMatch)
  {
    var parts := SplitColon(time);
    Target(ToNum(parts[0]), if |parts| >= 2 then ToNum(parts[1]) else NoMatch)
  }

  /** The `HH:MM` text a time input produces. */
  function FormatTime(hour: nat, minute: nat): (s: string)
    requires hour < 24 && minute < 60
    ensures |s| == 5 && s[2] == ':'
  {
    TwoDigitText(hour) + ":" + TwoDigitText(minute)
  }

  function TwoDigitText(n: nat): (s: string)
    requires n < 100
    ensures |s| == 2 && AllDigits(s) && DigitsValue(s) == n
  {
    var s := [Digit(n / 10), Digit(n % 10)];
    assert s[..1] == [Digit(n / 10)] && s[..1][..0] == [];
    assert DigitValue(s[0]) == n / 10 && DigitValue(s[1]) == n % 10;
    assert DigitsValue(s[..1]) == n / 10;
    s
  }

  /** Any `HH:MM` time parses back to its hour and minute. */
  lemma ParseFormatTime(hour: nat, minute: nat)
    requires hour < 24 && minute < 60
    ensures ParseTime(FormatTime(hour, minute)) == Target(Int(hour), Int(minute))
  {
    var h, m := TwoDigitText(hour), TwoDigitText(minute);
    assert ':' !in m;
    assert ':' !in h;
    SplitAppendColon(h, m);
  }

  /** Splitting `a:b` with colon-free `a` and `b` gives the two pieces. */
  lemma {:induction false} SplitAppendColon(a: string, b: string)
    requires ':' !in a && ':' !in b
    ensures SplitColon(a + ":" + b) == [a, b]
    decreases |a|
  {
    if |a| == 0 {
      assert a + ":" + b == [':'] + b;
      assert (a + ":" + b)[1..] == b;
    } else {
      assert (a + ":" + b)[1..] == a[1..] + ":" + b;
      SplitAppendColon(a[1..], b);
      assert [a[0]] + a[1..] == a;
    }
  }

  // ---------------------------------------------------------------------
  // The reminder timer
  // ---------------------------------------------------------------------

  /** `checkTime` at the given clock reading: does the reminder fire? */
  predicate Matches(t: Target, hour: int, minute: int) {
    t.hours == Int(hour) && t.minutes == Int(minute)
  }

  /** A reminder set through the time input fires at exactly that hour and minute. */
  lemma ReminderFiresExactly(h: nat, m: nat, hour: int, minute: int)
    requires h < 24 && m < 60
    ensures Matches(ParseTime(FormatTime(h, m)), hour, minute) <==> hour == h && minute == m
  {
    ParseFormatTime(h, m);
  }

  const ReminderTitle := "Daily Habit Reminder"
  const ReminderBody := "Don't forget to track your habits today! \U{1F4AA}"

  /** One run of `checkTime`: the reminder is sent when the minute matches. */
  function CheckTime(st: State, t: Target, hour: int, minute: int): (shown: seq<Notice>)
    ensures |shown| == 1 <==> Matches(t, hour, minute) && IsPermissionGranted(st)
    ensures |shown| <= 1
  {
    if Matches(t, hour, minute) then Send(st, ReminderTitle, ReminderBody, "daily-reminder") else []
  }

  /** `cancelDailyReminder`: clear the held interval, if any, and forget its id. */
  function Cancel(st: State): (r: State)
    ensures r.held == None
    ensures st.held.Some? ==> r.intervals == st.intervals - {st.held.value}
    ensures st.held.None? ==> r == st
    ensures SingleTimer(st) ==> r.intervals == map[]
  {
    match st.held
    case None => st
    case Some(id) => st.(held := None, intervals := st.intervals - {id})
  }

  lemma CancelIdempotent(st: State)
    ensures Cancel(Cancel(st)) == Cancel(st)
  {
  }

  /**
    `scheduleDailyReminder(time)` at the given clock reading: cancel any
    held interval, start a new one for the parsed time, hold its id, and
    run the check once straight away.
   */
  function Schedule(st: State, time: string, hour: int, minute: int): (r: (State, seq<Notice>))
    requires st.nextId > 0
    ensures var (st', shown) := r;
      && st'.held == Some(st.nextId)
      && st'.nextId == st.nextId + 1
      && st.nextId in st'.intervals && st'.intervals[st.nextId] == ParseTime(time)
      && (SingleTimer(st) ==> st'.intervals.Keys == {st.nextId})
      && shown == CheckTime(st, ParseTime(time), hour, minute)
      && st'.settingsEntry == st.settingsEntry
  {
    var cleared := Cancel(st);
    var t := ParseTime(time);
    var id := cleared.nextId;
    (cleared.(held := Some(id), intervals := cleared.intervals[id := t], nextId := id + 1),
     CheckTime(st, t, hour, minute))
  }

  /** One minute passing under the single-timer invariant: the held interval, if running, runs its check. */
  function Tick(st: State, hour: int, minute: int): (shown: seq<Notice>)
    requires SingleTimer(st)
    ensures st.intervals == map[] ==> shown == []
    ensures |shown| == 1 <==>
      exists id :: id in st.intervals && Matches(st.intervals[id], hour, minute) && IsPermissionGranted(st)
  {
    if st.held.Some? && st.held.value in st.intervals then
      CheckTime(st, st.intervals[st.held.value], hour, minute)
    else []
  }

  /**
    `saveSettings` at the given clock reading: store the settings, then keep
    the reminder running exactly when it is enabled.
   */
  function SaveSettings(st: State, s: Settings, hour: int, minute: int): (r: (State, seq<Notice>))
    requires st.nextId > 0
    ensures var (st', _) := r;
      && GetSettings(st') == s
      && (st'.held.Some? <==> s.enabled && s.dailyReminder)
      && (SingleTimer(st) ==> SingleTimer(st'))
      && (SingleTimer(st) ==> (|st'.intervals| == 1 <==> s.enabled && s.dailyReminder))
      && st'.supported == st.supported && st'.permission == st.permission
  {
    var stored := st.(settingsEntry := Some(s));
    if s.enabled && s.dailyReminder then
      var (st', shown) := Schedule(stored, s.reminderTime, hour, minute);
      (st', shown)
    else
      (Cancel(stored), [])
  }

  /** Whatever sequence of saves happens, at most one reminder interval is ever running. */
  lemma {:induction false} SavesKeepSingleTimer(st: State, saves: seq<Settings>, hour: int, minute: int)
    requires st.nextId > 0 && SingleTimer(st)
    ensures SingleTimer(SaveAll(st, saves, hour, minute))
    decreases |saves|
  {
    if |saves| > 0 {
      var st1 := SaveSettings(st, saves[0], hour, minute).0;
      SavesKeepSingleTimer(st1, saves[1..], hour, minute);
    }
  }

  /** The state after saving each settings record in turn. */
  function SaveAll(st: State, saves: seq<Settings>, hour: int, minute: int): (r: State)
    requires st.nextId > 0
    ensures r.nextId > 0
    decreases |saves|
  {
    if |saves| == 0 then st
    else SaveAll(SaveSettings(st, saves[0], hour, minute).0, saves[1..], hour, minute)
  }

  /** Turning reminders on and then off leaves no interval running. */
  lemma EnableThenDisableStopsTimer(st: State, on: Settings, off: Settings, hour: int, minute: int)
    requires st.nextId > 0 && SingleTimer(st)
    requires on.enabled && on.dailyReminder
    requires !(off.enabled && off.dailyReminder)
    ensures var st1 := SaveSettings(st, on, hour, minute).0;
      |st1.intervals| == 1 && SaveSettings(st1, off, hour, minute).0.intervals == map[]
  {
  }

  const CompletionTitle := "\U{1F389} Perfect Day!"
  const CompletionBody := "You completed all your habits today! Keep up the great work!"

  /** `sendCompletionNotification`: sent only when both settings allow it and permission is granted. */
  function SendCompletion(st: State): (shown: seq<Notice>)
    ensures |shown| <= 1
    ensures |shown| == 1 <==>
      GetSettings(st).enabled && GetSettings(st).completionNotification && IsPermissionGranted(st)
    ensures |shown| == 1 ==> shown[0].tag == "completion"
  {
    var s := GetSettings(st);
    if s.enabled && s.completionNotification then
      Send(st, CompletionTitle, CompletionBody, "completion")
    else []
  }

  /** With nothing stored, no completion notice is ever sent (notifications start disabled). */
  lemma DefaultsSendNoCompletion(st: State)
    requires st.settingsEntry.None?
    ensures SendCompletion(st) == []
  {
  }
}

=== FILE: palette.dfy ===
/**
  The icon and colour choices offered by the habit editors
  (src/components/Settings.tsx and src/components/HabitSetup.tsx declare
  the same two lists).
 */
module Palette {
  /** `ICON_OPTIONS`, in order. */
  const IconOptions: seq<string> := [
    "\U{1F4A7}", "\U{1F3C3}", "\U{1F4D6}", "\U{1F9D8}", "\U{1F957}", "\U{1F4AA}", "\U{1F3AF}",
    "\U{270D}\U{FE0F}", "\U{1F305}", "\U{1F634}", "\U{1F3A8}", "\U{1F3B5}", "\U{1F9E0}", "\U{1F4BC}"
  ]

  /** `COLOR_OPTIONS`, in order. */
  const ColorOptions: seq<string> := [
    "#10b981", "#3b82f6", "#8b5cf6", "#ec4899", "#f59e0b",
    "#ef4444", "#14b8a6", "#06b6d4", "#6366f1", "#f97316"
  ]

  /** The colour a new habit gets when `n` habits exist: the list is cycled through. */
  function ColorFor(n: nat): (c: string)
    ensures c in ColorOptions
    ensures n < |ColorOptions| ==> c == ColorOptions[n]
  {
    var options := ColorOptions;
    var k := n % |options|;
    assert options[k] in options;
    options[k]
  }

  /** The icon a new habit gets when `n` habits exist. */
  function IconFor(n: nat): (i: string)
    ensures i in IconOptions
    ensures n < |IconOptions| ==> i == IconOptions[n]
  {
    var options := IconOptions;
    var k := n % |options|;
    assert options[k] in options;
    options[k]
  }

  /** The defaults repeat with periods 10 and 14, so together every 70 habits. */
  lemma DefaultsCycle(n: nat)
    ensures |ColorOptions| == 10 && |IconOptions| == 14
    ensures ColorFor(n + 10) == ColorFor(n)
    ensures IconFor(n + 14) == IconFor(n)
    ensures ColorFor(n + 70) == ColorFor(n) && IconFor(n + 70) == IconFor(n)
  {
  }

  /** The first ten habits get ten different colours, the first fourteen fourteen different icons. */
  lemma OptionsDistinct()
    ensures forall i, j :: 0 <= i < j < |ColorOptions| ==> ColorOptions[i] != ColorOptions[j]
    ensures forall i, j :: 0 <= i < j < |IconOptions| ==> IconOptions[i] != IconOptions[j]
  {
  }
}

=== FILE: settings.dfy ===
/**
  The habit manager of src/components/Settings.tsx: editing, deleting and
  adding habits, each change written through to the stored habit list.
 */
module Settings {
  import opened Common
  import opened Storage
  import opened Palette

  /** The screen's state: its copy of the habit list and the edit form. */
  datatype Editor = Editor(
    habits: seq<Habit>,
    editingId: Option<string>,
    editName: string,
    editColor: string,
    editIcon: string)

  /** The result of a button press: the new state, the new store and the toast shown, if any. */
  datatype Step = Step(editor: Editor, store: Store, toast: Option<Toast>)

  /** On mount the list is loaded from storage and no habit is being edited. */
  function Mount(s: Store): (e: Editor)
    ensures e.habits == GetHabits(s) && e.editingId == None
  {
    Editor(GetHabits(s), None, "", "", "")
  }

  /** `startEdit`: open the form on a habit, pre-filled with its fields. */
  function StartEdit(e: Editor, h: Habit): (r: Editor)
    ensures r.habits == e.habits
    ensures r.editingId == Some(h.id)
    ensures Habit(h.id, r.editName, r.editColor, r.editIcon) == h
  {
    e.(editingId := Some(h.id), editName := h.name, editColor := h.color, editIcon := h.icon)
  }

  /** The Cancel button closes the form and leaves the list alone. */
  function CancelEdit(e: Editor): (r: Editor)
    ensures r.habits == e.habits && r.editingId == None
  {
    e.(editingId := None)
  }

  /** Replace every habit whose id is `id` by `h`; the others keep their place. */
  function ReplaceById(habits: seq<Habit>, id: Option<string>, h: Habit): (r: seq<Habit>)
    ensures |r| == |habits|
    ensures forall i :: 0 <= i < |habits| ==>
      r[i] == (if Some(habits[i].id) == id then h else habits[i])
  {
    seq(|habits|, i requires 0 <= i < |habits| => if Some(habits[i].id) == id then h else habits[i])
  }

  /**
    `saveEdit`: a name that trims to nothing is refused with an error and
    nothing changes; otherwise the edited habit takes the form's name
    (untrimmed), colour and icon, keeps its id, the list is saved and the
    form closes.
   */
  function SaveEdit(e: Editor, s: Store): (r: Step)
    ensures IsBlank(e.editName) ==>
      r == Step(e, s, Some(Failure("Habit name cannot be empty")))
    ensures !IsBlank(e.editName) ==>
      && r.editor.editingId == None
      && |r.editor.habits| == |e.habits|
      && (forall i :: 0 <= i < |e.habits| ==>
            r.editor.habits[i].id == e.habits[i].id
            && (Some(e.habits[i].id) == e.editingId ==>
                  r.editor.habits[i] == Habit(e.habits[i].id, e.editName, e.editColor, e.editIcon))
            && (Some(e.habits[i].id) != e.editingId ==> r.editor.habits[i] == e.habits[i]))
      && GetHabits(r.store) == r.editor.habits
      && r.store.progressEntry == s.progressEntry
      && r.toast == Some(Success("Habit updated"))
  {
    TrimEmptyIffBlank(e.editName);
    if Trim(e.editName) == "" then
      Step(e, s, Some(Failure("Habit name cannot be empty")))
    else
      var id := if e.editingId.Some? then e.editingId.value else "";
      var updated := ReplaceById(e.habits, e.editingId, Habit(id, e.editName, e.editColor, e.editIcon));
      Step(e.(habits := updated, editingId := None), SaveHabits(s, updated), Some(Success("Habit updated")))
  }

  /** Editing changes names, colours and icons only: the ids, and so their uniqueness, stay. */
  lemma SaveEditKeepsIds(e: Editor, s: Store)
    ensures HabitIds(SaveEdit(e, s).editor.habits) == HabitIds(e.habits)
    ensures UniqueIds(e.habits) ==> UniqueIds(SaveEdit(e, s).editor.habits)
  {
    var r := SaveEdit(e, s).editor.habits;
    assert |r| == |e.habits|;
    forall id | id in HabitIds(r) ensures id in HabitIds(e.habits) {
      var i :| 0 <= i < |r| && r[i].id == id;
      assert e.habits[i].id == id;
    }
    forall id | id in HabitIds(e.habits) ensures id in HabitIds(r) {
      var i :| 0 <= i < |e.habits| && e.habits[i].id == id;
      assert r[i].id == id;
    }
  }

  /** Opening a habit and saving without touching the form leaves the list as it was. */
  lemma StartThenSaveIsNoOp(e: Editor, s: Store, k: nat)
    requires k < |e.habits| && UniqueIds(e.habits)
    requires !IsBlank(e.habits[k].name)
    ensures SaveEdit(StartEdit(e, e.habits[k]), s).editor.habits == e.habits
  {
    var r := SaveEdit(StartEdit(e, e.habits[k]), s).editor.habits;
    forall i | 0 <= i < |e.habits| ensures r[i] == e.habits[i] {
      if i != k {
        assert e.habits[i].id != e.habits[k].id by {
          if i < k { assert e.habits[i].id != e.habits[k].id; } else { assert e.habits[k].id != e.habits[i].id; }
        }
      }
    }
  }

  /** `habits.filter(h => h.id !== id)`. */
  function RemoveById(habits: seq<Habit>, id: string): (r: seq<Habit>)
    ensures forall h :: h in r <==> h in habits && h.id != id
    ensures |r| <= |habits|
    ensures id !in HabitIds(habits) ==> r == habits
  {
    if |habits| == 0 then []
    else if habits[0].id == id then RemoveById(habits[1..], id)
    else [habits[0]] + RemoveById(habits[1..], id)
  }

  /**
    Filtering distributes over concatenation, so the kept habits stay in
    their original order.
   */
  lemma {:induction false} RemoveByIdAppend(a: seq<Habit>, b: seq<Habit>, id: string)
    ensures RemoveById(a + b, id) == RemoveById(a, id) + RemoveById(b, id)
    decreases |a|
  {
    if |a| == 0 {
      assert a + b == b;
    } else {
      assert (a + b)[1..] == a[1..] + b;
      RemoveByIdAppend(a[1..], b, id);
    }
  }

  /** Removing an id from a list it was appended to gives the list back. */
  lemma RemoveAppended(habits: seq<Habit>, h: Habit)
    requires h.id !in HabitIds(habits)
    ensures RemoveById(habits + [h], h.id) == habits
  {
    RemoveByIdAppend(habits, [h], h.id);
    assert RemoveById([h], h.id) == RemoveById([h][1..], h.id) == [];
  }

  /** With unique ids, deleting a present habit shortens the list by exactly one. */
  lemma {:induction false} RemoveByIdCount(habits: seq<Habit>, id: string)
    requires UniqueIds(habits) && id in HabitIds(habits)
    ensures |RemoveById(habits, id)| == |habits| - 1
  {
    if habits[0].id == id {
      forall i | 0 <= i < |habits[1..]| ensures habits[1..][i].id != id {
        assert habits[1..][i] == habits[i + 1];
      }
    } else {
      var i :| 0 <= i < |habits| && habits[i].id == id;
      assert habits[1..][i - 1].id == id;
      assert UniqueIds(habits[1..]) by {
        forall a, b | 0 <= a < b < |habits| - 1 ensures habits[1..][a].id != habits[1..][b].id {
          assert habits[a + 1].id != habits[b + 1].id;
        }
      }
      RemoveByIdCount(habits[1..], id);
    }
  }

  /**
    `deleteHabit`: drop the habit with that id from the list and from
    storage; progress records, which may still name it, stay as they are.
   */
  function DeleteHabit(e: Editor, s: Store, id: string): (r: Step)
    ensures r.editor.habits == RemoveById(e.habits, id)
    ensures id !in HabitIds(r.editor.habits)
    ensures forall h :: h in e.habits && h.id != id ==> h in r.editor.habits
    ensures forall h :: h in r.editor.habits ==> h in e.habits
    ensures GetHabits(r.store) == r.editor.habits
    ensures r.store.progressEntry == s.progressEntry
    ensures r.editor.editingId == e.editingId
    ensures r.toast == Some(Success("Habit deleted"))
  {
    var updated := RemoveById(e.habits, id);
    Step(e.(habits := updated), SaveHabits(s, updated), Some(Success("Habit deleted")))
  }

  /** The habit `addNewHabit` creates: a timestamp id, a placeholder name, cycled colour and icon. */
  function NewHabit(count: nat, now: nat): (h: Habit)
    ensures h.name == "New Habit"
    ensures h.color == ColorFor(count) && h.icon == IconFor(count)
    ensures |h.id| > 6 && h.id[..6] == "habit-" && h.id[6..] == NatToString(now)
  {
    Habit("habit-" + NatToString(now), "New Habit", ColorFor(count), IconFor(count))
  }

  /**
    `addNewHabit` at time `now` (milliseconds): append the new habit, save
    the list and open the form on it.
   */
  function AddNewHabit(e: Editor, s: Store, now: nat): (r: Step)
    ensures |r.editor.habits| == |e.habits| + 1
    ensures r.editor.habits[..|e.habits|] == e.habits
    ensures r.editor.habits[|e.habits|] == NewHabit(|e.habits|, now)
    ensures r.editor.editingId == Some(NewHabit(|e.habits|, now).id)
    ensures r.editor.editName == "New Habit"
    ensures Habit(r.editor.editingId.value, r.editor.editName, r.editor.editColor, r.editor.editIcon)
      == NewHabit(|e.habits|, now)
    ensures GetHabits(r.store) == r.editor.habits
    ensures r.store.progressEntry == s.progressEntry
    ensures r.toast == None
  {
    var h := NewHabit(|e.habits|, now);
    var updated := e.habits + [h];
    Step(StartEdit(e.(habits := updated), h), SaveHabits(s, updated), None)
  }

  /** Adding keeps ids unique as long as no earlier habit carries the new timestamp id. */
  lemma AddNewHabitKeepsUniqueIds(e: Editor, s: Store, now: nat)
    requires UniqueIds(e.habits)
    requires NewHabit(|e.habits|, now).id !in HabitIds(e.habits)
    ensures UniqueIds(AddNewHabit(e, s, now).editor.habits)
  {
    var r := AddNewHabit(e, s, now).editor.habits;
    forall i, j | 0 <= i < j < |r| ensures r[i].id != r[j].id {
      assert r[i] == e.habits[i];
      if j < |e.habits| {
        assert r[j] == e.habits[j];
      }
    }
  }

  /** Deleting a freshly added habit restores the list and the stored habits. */
  lemma AddThenDeleteRestores(e: Editor, s: Store, now: nat)
    requires NewHabit(|e.habits|, now).id !in HabitIds(e.habits)
    ensures var added := AddNewHabit(e, s, now);
      var removed := DeleteHabit(added.editor, added.store, NewHabit(|e.habits|, now).id);
      removed.editor.habits == e.habits && GetHabits(removed.store) == e.habits
  {
    var h := NewHabit(|e.habits|, now);
    assert AddNewHabit(e, s, now).editor.habits == e.habits + [h];
    RemoveAppended(e.habits, h);
  }
}

=== FILE: storage.dfy ===
/**
  The progress store of src/lib/storage.ts: two localStorage entries, the
  habit list and the list of per-date completion records. The store is a
  value; every write returns the new store.
 */
module Storage {
  import opened Common

  datatype Habit = Habit(id: string, name: string, color: string, icon: string)

  /** One day's record: the date key `YYYY-MM-DD`, habit id -> done, and the stored percentage. */
  datatype DayProgress = DayProgress(date: string, habits: map<string, bool>, progress: int)

  /** The two localStorage entries; None while a key has never been written. */
  datatype Store = Store(habitsEntry: Option<seq<Habit>>, progressEntry: Option<seq<DayProgress>>)

  const EmptyStore: Store := Store(None, None)

  // ---------------------------------------------------------------------
  // Habits
  // ---------------------------------------------------------------------

  /** `getHabits`: the stored list, or [] when nothing is stored. */
  function GetHabits(s: Store): (hs: seq<Habit>)
    ensures s.habitsEntry.None? ==> hs == []
    ensures s.habitsEntry.Some? ==> hs == s.habitsEntry.value
  {
    match s.habitsEntry
    case None => []
    case Some(hs) => hs
  }

  /** `saveHabits`: replace the whole habit list; the progress entry is untouched. */
  function SaveHabits(s: Store, hs: seq<Habit>): (r: Store)
    ensures GetHabits(r) == hs
    ensures r.progressEntry == s.progressEntry
  {
    s.(habitsEntry := Some(hs))
  }

  /** The ids of a habit list. */
  function HabitIds(habits: seq<Habit>): (ids: set<string>)
    ensures forall i :: 0 <= i < |habits| ==> habits[i].id in ids
    ensures forall id :: id in ids ==> exists i :: 0 <= i < |habits| && habits[i].id == id
  {
    set i | 0 <= i < |habits| :: habits[i].id
  }

  /** No two habits share an id. */
  predicate UniqueIds(habits: seq<Habit>) {
    forall i, j :: 0 <= i < j < |habits| ==> habits[i].id != habits[j].id
  }

  /** The ids of a list are those of all but its last habit, plus the last one's. */
  lemma HabitIdsSnoc(habits: seq<Habit>)
    requires |habits| > 0
    ensures HabitIds(habits) == HabitIds(habits[..|habits| - 1]) + {habits[|habits| - 1].id}
  {
    var n := |habits| - 1;
    var init := habits[..n];
    forall id | id in HabitIds(habits) ensures id in HabitIds(init) + {habits[n].id} {
      var i :| 0 <= i < |habits| && habits[i].id == id;
      if i < n {
        assert init[i] == habits[i];
      }
    }
    forall id | id in HabitIds(init) ensures id in HabitIds(habits) {
      var i :| 0 <= i < n && init[i].id == id;
      assert habits[i] == init[i];
    }
  }

  /** The ids of a list are its first habit's and those of the rest. */
  lemma HabitIdsCons(habits: seq<Habit>)
    requires |habits| > 0
    ensures HabitIds(habits) == {habits[0].id} + HabitIds(habits[1..])
  {
    forall id | id in HabitIds(habits) ensures id in {habits[0].id} + HabitIds(habits[1..]) {
      var i :| 0 <= i < |habits| && habits[i].id == id;
      if i > 0 {
        assert habits[1..][i - 1] == habits[i];
      }
    }
  }

  /** Dropping the last habit of a list with unique ids leaves unique ids, none of them the last one's. */
  lemma UniqueIdsInit(habits: seq<Habit>)
    requires |habits| > 0 && UniqueIds(habits)
    ensures UniqueIds(habits[..|habits| - 1])
    ensures habits[|habits| - 1].id !in HabitIds(habits[..|habits| - 1])
  {
    var n := |habits| - 1;
    var init := habits[..n];
    forall i, j | 0 <= i < j < |init| ensures init[i].id != init[j].id {
      assert init[i] == habits[i] && init[j] == habits[j];
    }
    forall i | 0 <= i < n ensures init[i].id != habits[n].id {
      assert init[i] == habits[i];
    }
  }

  /** A list has at most as many distinct ids as habits, exactly as many when its ids are unique. */
  lemma {:induction false} HabitIdsCard(habits: seq<Habit>)
    ensures |HabitIds(habits)| <= |habits|
    ensures UniqueIds(habits) ==> |HabitIds(habits)| == |habits|
  {
    if |habits| > 0 {
      var n := |habits| - 1;
      var init := habits[..n];
      var last := habits[n].id;
      HabitIdsCard(init);
      HabitIdsSnoc(habits);
      assert |HabitIds(init) + {last}| <= |HabitIds(init)| + 1;
      if UniqueIds(habits) {
        UniqueIdsInit(habits);
        assert |HabitIds(init) + {last}| == |HabitIds(init)| + 1;
      }
    }
  }

  /** `isSetupComplete`: some habit has been saved. */
  predicate IsSetupComplete(s: Store): (r: bool)
    ensures r <==> s.habitsEntry.Some? && s.habitsEntry.value != []
  {
    |GetHabits(s)| > 0
  }

  /** Setup is complete exactly when the stored habit list is non-empty; a fresh store is not set up. */
  lemma IsSetupCompleteIff(s: Store)
    ensures IsSetupComplete(s) <==> s.habitsEntry.Some? && s.habitsEntry.value != []
    ensures !IsSetupComplete(EmptyStore)
  {
  }

  // ---------------------------------------------------------------------
  // The stored percentage
  // ---------------------------------------------------------------------

  /** The ids whose value is true (`Object.values(habits).filter(Boolean)`). */
  function CompletedIds(m: map<string, bool>): (ids: set<string>)
    ensures ids <= m.Keys
    ensures forall k :: k in ids <==> k in m && m[k]
  {
    set k | k in m && m[k]
  }

  /** The number of true values in a completion map. */
  function CountTrue(m: map<string, bool>): (n: nat)
    ensures n <= |m|
  {
    SubsetCard(CompletedIds(m), m.Keys);
    |CompletedIds(m)|
  }

  lemma SubsetCard<T>(a: set<T>, b: set<T>)
    requires a <= b
    ensures |a| <= |b|
    ensures |a| == |b| ==> a == b
  {
    assert b == a + (b - a);
    assert |b| == |a| + |b - a|;
    if |a| == |b| {
      assert |b - a| == 0;
    }
  }

  /** Every value is true exactly when all keys count. */
  lemma CountTrueAll(m: map<string, bool>)
    ensures CountTrue(m) == |m| <==> forall k :: k in m ==> m[k]
  {
    SubsetCard(CompletedIds(m), m.Keys);
    if forall k :: k in m ==> m[k] {
      assert CompletedIds(m) == m.Keys;
    }
  }

  /** No value is true exactly when the count is zero. */
  lemma CountTrueNone(m: map<string, bool>)
    ensures CountTrue(m) == 0 <==> forall k :: k in m ==> !m[k]
  {
    if CountTrue(m) == 0 {
      forall k | k in m ensures !m[k] {
      }
    }
  }

  /**
    `total > 0 ? Math.round((done / total) * 100) : 0`: the percentage of
    `done` out of `total`, halves rounded up, and 0 for an empty total.
   */
  function Percent(done: nat, total: nat): (p: int)
    requires done <= total
    ensures 0 <= p <= 100
    ensures total == 0 ==> p == 0
    ensures total > 0 ==> 2 * total * p <= 200 * done + total < 2 * total * (p + 1)
  {
    if total > 0 then
      RoundDivPercentBounds(done, total);
      RoundDiv(100 * done, total)
    else 0
  }

  /** The percentage stored with a completion map: true values out of all keys. */
  function ProgressPercent(m: map<string, bool>): (p: int)
    ensures 0 <= p <= 100
    ensures |m| == 0 ==> p == 0
    ensures |m| > 0 ==> 2 * |m| * p <= 200 * CountTrue(m) + |m| < 2 * |m| * (p + 1)
  {
    Percent(CountTrue(m), |m|)
  }

  /** Below 200 keys, a record reads 100% exactly when every value is true. */
  lemma ProgressFullIffAllDone(m: map<string, bool>)
    requires |m| < 200
    ensures ProgressPercent(m) == 100 <==> |m| > 0 && forall k :: k in m ==> m[k]
  {
    CountTrueAll(m);
    var n, c, p := |m|, CountTrue(m), ProgressPercent(m);
    if n > 0 && c < n {
      // 100 * c / n <= 100 - 100 / n < 99.5
      assert 200 * c + n <= 201 * n - 200;
      assert p != 100;
    } else if n > 0 {
      assert 2 * n * p <= 201 * n < 2 * n * (p + 1);
      if p > 100 {
        MulMonotone(2 * n, 101, p);
      } else if p < 100 {
        MulMonotone(2 * n, p + 1, 100);
      }
    }
  }

  /** Up to 200 keys, a record reads 0% exactly when no value is true. */
  lemma ProgressZeroIffNoneDone(m: map<string, bool>)
    requires |m| <= 200
    ensures ProgressPercent(m) == 0 <==> forall k :: k in m ==> !m[k]
  {
    CountTrueNone(m);
    var n, c, p := |m|, CountTrue(m), ProgressPercent(m);
    if n > 0 && c > 0 && p == 0 {
      MulMonotone(200, 1, c);
    } else if n > 0 && c == 0 && p > 0 {
      MulMonotone(2 * n, 1, p);
    }
  }

  /** With 200 or more habits, one unchecked habit still rounds to 100%. */
  lemma AllButOneRoundsToFull(n: nat)
    requires n >= 200
    ensures Percent(n - 1, n) == 100
  {
    var p := Percent(n - 1, n);
    assert 200 * (n - 1) + n >= 2 * n * 100 - n;
    if p < 100 {
      MulMonotone(2 * n, p + 1, 100);
    } else if p > 100 {
      MulMonotone(2 * n, 101, p);
    }
  }

  // ---------------------------------------------------------------------
  // Progress records
  // ---------------------------------------------------------------------

  /** `getAllProgress`: the stored records, or [] when nothing is stored. */
  function GetAllProgress(s: Store): (ps: seq<DayProgress>)
    ensures s.progressEntry.None? ==> ps == []
    ensures s.progressEntry.Some? ==> ps == s.progressEntry.value
  {
    match s.progressEntry
    case None => []
    case Some(ps) => ps
  }

  /** `findIndex(p => p.date === date)` from position i on. */
  function FindIndexFrom(ps: seq<DayProgress>, date: string, i: nat): (r: Option<nat>)
    requires i <= |ps|
    ensures r.Some? ==> (i <= r.value < |ps| && ps[r.value].date == date
                         && forall j :: i <= j < r.value ==> ps[j].date != date)
    ensures r.None? ==> forall j :: i <= j < |ps| ==> ps[j].date != date
    decreases |ps| - i
  {
    if i == |ps| then None
    else if ps[i].date == date then Some(i)
    else FindIndexFrom(ps, date, i + 1)
  }

  /** The index of the first record with that date, or None (`findIndex` returning -1). */
  function FindIndex(ps: seq<DayProgress>, date: string): (r: Option<nat>)
    ensures r.Some? ==> (r.value < |ps| && ps[r.value].date == date
                         && forall j :: 0 <= j < r.value ==> ps[j].date != date)
    ensures r.None? <==> forall j :: 0 <= j < |ps| ==> ps[j].date != date
  {
    FindIndexFrom(ps, date, 0)
  }

  /** `find(p => p.date === date) || null` over a record list. */
  function FindByDate(ps: seq<DayProgress>, date: string): (r: Option<DayProgress>)
    ensures r.None? <==> forall j :: 0 <= j < |ps| ==> ps[j].date != date
    ensures r.Some? ==> exists k :: (0 <= k < |ps| && ps[k] == r.value && r.value.date == date
                                     && forall j :: 0 <= j < k ==> ps[j].date != date)
  {
    match FindIndex(ps, date)
    case None => None
    case Some(k) => Some(ps[k])
  }

  /** `getProgressForDate`: the first stored record with that date, or null. */
  function GetProgressForDate(s: Store, date: string): (r: Option<DayProgress>)
    ensures r == FindByDate(GetAllProgress(s), date)
    ensures r.None? <==> forall j :: 0 <= j < |GetAllProgress(s)| ==> GetAllProgress(s)[j].date != date
    ensures r.Some? ==> r.value in GetAllProgress(s) && r.value.date == date
  {
    FindByDate(GetAllProgress(s), date)
  }

  /** `progress?.progress || 0`: the percentage stored for a date, 0 without a record. */
  function ProgressOrZero(ps: seq<DayProgress>, date: string): (p: int)
    ensures (forall j :: 0 <= j < |ps| ==> ps[j].date != date) ==> p == 0
    ensures forall k :: (0 <= k < |ps| && ps[k].date == date
                         && (forall j :: 0 <= j < k ==> ps[j].date != date)) ==> p == ps[k].progress
  {
    match FindByDate(ps, date)
    case None => 0
    case Some(rec) => JsOr(rec.progress, 0)
  }

  /** The record a save writes: the percentage is always recomputed from the map. */
  function MakeRecord(date: string, habits: map<string, bool>): (rec: DayProgress)
    ensures rec.date == date && rec.habits == habits
    ensures 0 <= rec.progress <= 100
  {
    DayProgress(date, habits, ProgressPercent(habits))
  }

  /** Replace the first record with the new record's date in place, or append it. */
  function Upsert(ps: seq<DayProgress>, rec: DayProgress): (qs: seq<DayProgress>)
    ensures FindIndex(ps, rec.date).None? ==> qs == ps + [rec]
    ensures FindIndex(ps, rec.date).Some? ==>
      var k := FindIndex(ps, rec.date).value;
      |qs| == |ps| && qs[k] == rec && forall j :: 0 <= j < |ps| && j != k ==> qs[j] == ps[j]
  {
    match FindIndex(ps, rec.date)
    case Some(k) => ps[k := rec]
    case None => ps + [rec]
  }

  /**
    `saveProgressForDate`: recompute the percentage from the map and upsert
    the record keyed on the date string. The written record is what a later
    read of that date returns, and the habit list is untouched.
   */
  function SaveProgressForDate(s: Store, date: string, habits: map<string, bool>): (r: Store)
    ensures r.habitsEntry == s.habitsEntry
    ensures GetAllProgress(r) == Upsert(GetAllProgress(s), MakeRecord(date, habits))
    ensures GetProgressForDate(r, date) == Some(MakeRecord(date, habits))
  {
    var ps := GetAllProgress(s);
    var r := s.(progressEntry := Some(Upsert(ps, MakeRecord(date, habits))));
    UpsertThenFind(ps, MakeRecord(date, habits));
    r
  }

  /** After an upsert the first record with that date is the new one. */
  lemma UpsertThenFind(ps: seq<DayProgress>, rec: DayProgress)
    ensures FindByDate(Upsert(ps, rec), rec.date) == Some(rec)
  {
    var qs := Upsert(ps, rec);
    match FindIndex(ps, rec.date)
    case Some(k) =>
      assert FindIndex(qs, rec.date) == Some(k) by {
        var r := FindIndex(qs, rec.date);
        assert r.Some?;
        assert qs[k].date == rec.date;
      }
    case None =>
      assert FindIndex(qs, rec.date) == Some(|ps|) by {
        assert qs[|ps|].date == rec.date;
      }
  }

  /** An existing date is overwritten where it stands: same length, other records unchanged. */
  lemma SaveExistingDateInPlace(s: Store, date: string, habits: map<string, bool>, k: nat)
    requires k < |GetAllProgress(s)| && GetAllProgress(s)[k].date == date
    requires forall j :: 0 <= j < k ==> GetAllProgress(s)[j].date != date
    ensures var ps, qs := GetAllProgress(s), GetAllProgress(SaveProgressForDate(s, date, habits));
      && |qs| == |ps|
      && qs[k] == MakeRecord(date, habits)
      && forall j :: 0 <= j < |ps| && j != k ==> qs[j] == ps[j]
  {
    var ps := GetAllProgress(s);
    assert FindIndex(ps, date) == Some(k) by {
      var r := FindIndex(ps, date);
    }
  }

  /** A new date is appended at the end and the list grows by one. */
  lemma SaveNewDateAppends(s: Store, date: string, habits: map<string, bool>)
    requires forall j :: 0 <= j < |GetAllProgress(s)| ==> GetAllProgress(s)[j].date != date
    ensures GetAllProgress(SaveProgressForDate(s, date, habits))
      == GetAllProgress(s) + [MakeRecord(date, habits)]
  {
  }

  /** At most one record per date. */
  predicate UniqueDates(ps: seq<DayProgress>) {
    forall i, j :: 0 <= i < j < |ps| ==> ps[i].date != ps[j].date
  }

  /** Saving keeps dates unique. */
  lemma SavePreservesUniqueDates(s: Store, date: string, habits: map<string, bool>)
    requires UniqueDates(GetAllProgress(s))
    ensures UniqueDates(GetAllProgress(SaveProgressForDate(s, date, habits)))
  {
  }

  /** Saving the same date and map twice leaves the same records as saving once. */
  lemma SaveIdempotent(s: Store, date: string, habits: map<string, bool>)
    ensures var once := SaveProgressForDate(s, date, habits);
      SaveProgressForDate(once, date, habits) == once
  {
    var rec := MakeRecord(date, habits);
    var ps := GetAllProgress(s);
    var qs := Upsert(ps, rec);
    match FindIndex(ps, date)
    case Some(k) =>
      assert FindIndex(qs, date) == Some(k) by {
        var r := FindIndex(qs, date);
        assert qs[k].date == date;
      }
      assert qs[k := rec] == qs;
    case None =>
      assert FindIndex(qs, date) == Some(|ps|) by {
        var r := FindIndex(qs, date);
        assert qs[|ps|].date == date;
      }
      assert qs[|ps| := rec] == qs;
  }

  /** Saving one date does not change what is read for any other date. */
  lemma SaveLeavesOtherDates(s: Store, date: string, habits: map<string, bool>, other: string)
    requires other != date
    ensures GetProgressForDate(SaveProgressForDate(s, date, habits), other) == GetProgressForDate(s, other)
  {
    var ps := GetAllProgress(s);
    var rec := MakeRecord(date, habits);
    var qs := Upsert(ps, rec);
    forall j | 0 <= j < |qs| && qs[j].date == other
      ensures j < |ps| && qs[j] == ps[j]
    {
    }
    var a, b := FindIndex(ps, other), FindIndex(qs, other);
    if a.Some? {
      assert qs[a.value] == ps[a.value];
      assert b == a;
    } else {
      assert b.None?;
    }
  }
}

=== FILE: string_order.dfy ===
/**
  Code-unit lexicographic order on strings, the order in which the
  analytics view sorts `YYYY-MM-DD` keys (`a.date.localeCompare(b.date)`),
  and the facts the sorts and the date-key lemmas need about it.
 */
module StringOrder {
  import opened Common

  /** a sorts strictly before b: first differing character smaller, or a proper prefix. */
  predicate LexLess(a: string, b: string)
    decreases |a|
  {
    if |a| == 0 then |b| > 0
    else if |b| == 0 then false
    else a[0] < b[0] || (a[0] == b[0] && LexLess(a[1..], b[1..]))
  }

  predicate LexLe(a: string, b: string) {
    a == b || LexLess(a, b)
  }

  lemma {:induction false} LexLessIrreflexive(a: string)
    ensures !LexLess(a, a)
    decreases |a|
  {
    if |a| > 0 {
      LexLessIrreflexive(a[1..]);
    }
  }

  /** Exactly one of a < b, a == b, b < a holds. */
  lemma {:induction false} LexTrichotomy(a: string, b: string)
    ensures LexLess(a, b) || a == b || LexLess(b, a)
    ensures !(LexLess(a, b) && LexLess(b, a))
    decreases |a|
  {
    if |a| > 0 && |b| > 0 {
      LexTrichotomy(a[1..], b[1..]);
      if a[0] == b[0] && a[1..] == b[1..] {
        assert a == [a[0]] + a[1..];
        assert b == [b[0]] + b[1..];
      }
    }
  }

  lemma {:induction false} LexLessTransitive(a: string, b: string, c: string)
    requires LexLess(a, b) && LexLess(b, c)
    ensures LexLess(a, c)
    decreases |a|
  {
    if |a| > 0 && |b| > 0 && |c| > 0 && a[0] == b[0] && b[0] == c[0] {
      LexLessTransitive(a[1..], b[1..], c[1..]);
    }
  }

  lemma LexLeTransitive(a: string, b: string, c: string)
    requires LexLe(a, b) && LexLe(b, c)
    ensures LexLe(a, c)
  {
    if a != b && b != c {
      LexLessTransitive(a, b, c);
    }
  }

  /** For a first part of equal length, comparison decides on the first parts, then on the rest. */
  lemma {:induction false} LexLessConcat(a1: string, a2: string, b1: string, b2: string)
    requires |a1| == |b1|
    ensures LexLess(a1 + a2, b1 + b2) <==> LexLess(a1, b1) || (a1 == b1 && LexLess(a2, b2))
    decreases |a1|
  {
    if |a1| == 0 {
      assert a1 + a2 == a2;
      assert b1 + b2 == b2;
    } else {
      assert (a1 + a2)[1..] == a1[1..] + a2;
      assert (b1 + b2)[1..] == b1[1..] + b2;
      LexLessConcat(a1[1..], a2, b1[1..], b2);
      if a1[0] == b1[0] && a1[1..] == b1[1..] {
        assert a1 == [a1[0]] + a1[1..];
        assert b1 == [b1[0]] + b1[1..];
      }
    }
  }

  /** Two digit strings of one length compare as their numeric values do. */
  lemma {:induction false} LexLessDigits(a: string, b: string)
    requires |a| == |b|
    requires AllDigits(a) && AllDigits(b)
    ensures LexLess(a, b) <==> DigitsValue(a) < DigitsValue(b)
    ensures a == b <==> DigitsValue(a) == DigitsValue(b)
    decreases |a|
  {
    if |a| > 0 {
      var n := |a| - 1;
      var a', b' := a[..n], b[..n];
      assert a == a' + [a[n]];
      assert b == b' + [b[n]];
      LexLessDigits(a', b');
      LexLessConcat(a', [a[n]], b', [b[n]]);
      assert LexLess([a[n]], [b[n]]) <==> a[n] < b[n];
      var da, db := DigitValue(a[n]), DigitValue(b[n]);
      assert DigitsValue(a) == 10 * DigitsValue(a') + da;
      assert DigitsValue(b) == 10 * DigitsValue(b') + db;
      if DigitsValue(a') < DigitsValue(b') {
        MulMonotone(10, DigitsValue(a') + 1, DigitsValue(b'));
      } else if DigitsValue(b') < DigitsValue(a') {
        MulMonotone(10, DigitsValue(b') + 1, DigitsValue(a'));
      }
    }
  }
}
